=== FILE: README.md ===
# TGA image writer and line drawer, modelled in Dafny

This project models the core of a small software renderer written in Go:

- **tgalib**: the in-memory 24-bit image (`TGAImage`), colour construction
  (`NewRGB`), pixel writes (`SetRGBColor`), vertical flip (`FlipVertically`),
  the run-length encoder for TGA image type 10 (`writeRleData`) and the byte
  layout of the file `WriteTgaFile` produces. That layout is the 18-byte
  header, then the pixel data (raw or RLE), then the 26-byte footer.
- **main**: `abs` and the integer line rasteriser `line`.

The image is a pure value. It holds the pixel bytes (blue, green, red per
pixel, row after row), the width and height, and a flag for a nil buffer.
Each operation returns a new image. Go bytes are a `byte` newtype in 0..255,
and Go's byte wrap-around is written out as `% 256`. The file is a returned
byte sequence instead of an `os.File`.

Each operation is paired with an independent reference definition, an
inverse, or an invariant:

- **RLE encoder.** The loop (`Rle.WriteRleData`) is proved equal to a
  recursive greedy packet split (`Rle.Greedy`, built on the scan function
  `Rle.Span`). Independently of the scan, `Rle.Cut` states where a packet
  must end, and `Rle.CutUnique` shows that it fixes the packet at each
  position.
- **RLE decoder.** A TGA type-10 decoder (`RleDecode.Decode`) inverts the
  corrected encoder for every image (`RleDecode.RoundTripWide`). It inverts
  writeRleData as written when no raw packet exceeds 85 pixels
  (`RleDecode.RoundTrip`); see Findings for the longer ones.
- **Flip.** The in-place row-swap loop is proved equal to row reversal.
  Row reversal is an involution.
- **Header.** Header encoding and decoding are mutual inverses.
- **Line.** The Bresenham loop is proved equal to a closed-form "nearest
  pixel" definition (`Bresenham.Off`). That definition gives the end points,
  connectivity, the bounding box and direction independence.

Modules: `Bytes` (byte newtype, wrap-around arithmetic), `Arith`,
`TgaImage`, `Rle`, `RleDecode`, `TgaFile`, `Bresenham`.

Where the behaviour could be read two ways, the model follows the Go code:

- `writeRleData` cannot produce a zero-length raw packet.
  - On the first comparison (`run_length == 1`, tgalib/tgalib.go:119-121), `raw` is set to the negation of the comparison. So the back-off at lines 122-124 never sees a singleton raw run whose two pixels are equal.
  - `Rle.NextPacket` therefore always has length between 1 and 128 (`Rle.Fits`).
- `NewTGAImage` does no validation of its dimensions (tgalib/tgalib.go:40-43).
  - The model's `requires` excludes negative width or height. The source accepts such inputs whenever `width*height*3` is not negative, e.g. `NewTGAImage(-2, -3)` makes an 18-byte buffer.
  - There is no error result.

## Model

| member | source | states |
|---|---|---|
| TgaImage.NewRGB | tgalib/tgalib.go:15-16 | the colour's stored bytes are blue, green, red: the reverse of the argument order |
| TgaImage.NewTGAImage | tgalib/tgalib.go:40-43 | a new image has the given dimensions, a non-nil buffer of width·height·3 bytes, and every byte is zero |
| TgaImage.SetRGBColor | tgalib/tgalib.go:45-50 | the write fails exactly when the buffer is nil or (x, y) is outside the image; on failure nothing changes; on success the three bytes at (x + y·width)·3 become b, g, r and every other byte is unchanged |
| TgaImage.OffsetInside | tgalib/tgalib.go:49 | for an in-image pixel, the three bytes written lie inside the buffer |
| TgaImage.FlipVertically | tgalib/tgalib.go:158-173 | returns false and leaves the image unchanged exactly when the buffer is nil; otherwise row j of the result is row height−1−j of the input, for every j, and the dimensions are kept |
| TgaImage.SwapRowsLoop | tgalib/tgalib.go:162-171 | swapping row j with row h−1−j for j < h/2, in place, leaves the rows of the buffer reversed (odd middle row included) |
| TgaImage.SwapRows | tgalib/tgalib.go:166-170 | the three copies through the temporary line exchange row j and row h−1−j, which do not overlap, and leave every other byte in place |
| TgaImage.SwapPrefixReverses | tgalib/tgalib.go:164-171 | after the first h/2 symmetric row exchanges the buffer equals the row reversal |
| TgaImage.ReverseRowsInvolutive | tgalib/tgalib.go:158-173 | flipping twice gives back the original pixel data |
| TgaImage.FlattenRows | tgalib/tgalib.go:162 | cutting the buffer into rows of width·3 bytes and joining them back gives the buffer |
| TgaImage.RowsFlatten | tgalib/tgalib.go:162 | joining equal-length rows and cutting them back gives the same rows |
| Rle.SuccEq | tgalib/tgalib.go:114-117 | the three-byte comparison loop is true exactly when a pixel equals the next pixel |
| Rle.SamePixels | tgalib/tgalib.go:114-117 | bytewise equality of neighbours is equality of the 3-byte pixels |
| Rle.ScanPacket | tgalib/tgalib.go:108-131 | the scan loop (including the back-off of a raw run at a repeated pixel and the stop of a run at a differing pixel) yields the packet the greedy reference chooses at that position |
| Rle.NextPacketCut | tgalib/tgalib.go:111-130 | the packet chosen at each position satisfies the boundary rules: a run covers equal neighbours only and stops at 128, at the image end, or before a differing pixel; a raw packet covers distinct neighbours only and stops at 128, at the image end, or just before a pixel equal to its successor |
| Rle.CutUnique | tgalib/tgalib.go:111-130 | those boundary rules determine the packet at a position uniquely |
| Rle.NextPacket | tgalib/tgalib.go:109-131 | the packet the scan yields at pixel s starts at s, has 1 to 128 pixels and ends inside the image; NextPacketCut shows it obeys the boundary rules |
| Rle.Greedy | tgalib/tgalib.go:107-131 | every packet writeRleData emits from pixel s on has 1 to 128 pixels and ends inside the image; GreedyTiles and GreedyCut give the rest |
| Rle.RleBytes | tgalib/tgalib.go:104-156 | the encoding as written is empty exactly for an empty image, and otherwise opens with the count byte of the packet at pixel 0 |
| Rle.Span | tgalib/tgalib.go:113-130 | the scan measures the maximal stretch of neighbours that are all equal (or all different), capped |
| Rle.GreedyTiles | tgalib/tgalib.go:107-108 | the packets cover the pixels 0..n exactly, in order, with no gap or overlap |
| Rle.GreedyCut | tgalib/tgalib.go:107-131 | every packet in the encoding obeys the boundary rules |
| Rle.RunConstant | tgalib/tgalib.go:126-128 | every pixel of a run packet equals the run's first pixel |
| Rle.DistinctAllRaw | tgalib/tgalib.go:119-125 | an image with no two equal neighbours is encoded with raw packets only |
| Rle.CountByte | tgalib/tgalib.go:132-142 | a raw packet's count byte is length−1 (below 128); a run's is length+127 (128 or more) |
| Rle.RawPayloadLength | tgalib/tgalib.go:144 | the raw payload length is 3·length for up to 85 pixels, and 3·length−256 above that when computed in a byte |
| Rle.PacketBytes | tgalib/tgalib.go:132-153 | a packet is its count byte then, for a run, the single repeated pixel, or, for a raw packet, the pixel bytes from the packet start |
| Rle.EmitPacket | tgalib/tgalib.go:132-153 | the bytes written for one packet are that packet's encoding |
| Rle.WritePacket | tgalib/tgalib.go:108-153 | one outer iteration advances the position and keeps output-so-far + encoding-of-the-rest equal to the whole encoding |
| Rle.WriteRleData | tgalib/tgalib.go:104-156 | the bytes written are the serialisation of the greedy packet split (as written, with the byte-wide payload length; or with the corrected width) |
| RleDecode.Decode | tgalib/tgalib.go:132-153 | a TGA type-10 decoder; any pixel data it returns is a whole number of 3-byte pixels, and a non-empty input it accepts holds the whole first packet |
| RleDecode.RoundTripWide | tgalib/tgalib.go:104-156 | decoding the encoder's output, with the payload length computed without byte wrap-around, gives back exactly the pixel data, for every image |
| RleDecode.RoundTrip | tgalib/tgalib.go:104-156 | decoding the encoder's output as written gives back the pixel data whenever no raw packet is longer than 85 pixels |
| RleDecode.SameAsWide | tgalib/tgalib.go:144 | when no raw packet is longer than 85 pixels, the byte-wide and the corrected encoders emit the same bytes |
| RleDecode.DecodePacket | tgalib/tgalib.go:132-153 | the decoder reads one encoded packet back as exactly the pixels it covers |
| RleDecode.ConstantRepeat | tgalib/tgalib.go:126-128 | a stretch of equal neighbours is its first pixel repeated |
| RleDecode.AlternatingDistinct | tgalib/tgalib.go:119-125 | the image alternating black with blue 1 (bytes 1, 0, 0) has no two equal neighbours |
| RleDecode.OverflowLosesPixels | tgalib/tgalib.go:144 | for 86 alternating pixels the encoder as written emits count byte 85 and only 2 payload bytes; the stream is undecodable; the corrected encoder round-trips |
| TgaFile.ToInt16 | tgalib/tgalib.go:61-62 | int16(v) agrees with v modulo 2^16 and is v itself when v fits |
| TgaFile.Int16RoundTrip | tgalib/tgalib.go:71 | an int16 written little-endian reads back unchanged |
| TgaFile.Int16BytesRoundTrip | tgalib/tgalib.go:71 | every two bytes are the little-endian encoding of the int16 they read as |
| TgaFile.EncodeHeader | tgalib/tgalib.go:19-32 | the packed header is 18 bytes with every field at its fixed offset (bytes 0, 1, 2, 7, 16, 17) and the six int16 fields little-endian at bytes 3, 5, 8, 10, 12, 14 |
| TgaFile.HeaderRoundTrip | tgalib/tgalib.go:19-32 | decoding an encoded header gives the header back |
| TgaFile.HeaderBytesRoundTrip | tgalib/tgalib.go:19-32 | every 18-byte block is the encoding of the header it decodes to |
| TgaFile.TypeCode | tgalib/tgalib.go:63-69 | the image type byte is 10 exactly when RLE is requested, and 2 otherwise |
| TgaFile.FileHeader | tgalib/tgalib.go:59-70 | the header has 24 bits per pixel, top-left origin (0x20), the requested type, and width and height truncated to 16 bits |
| TgaFile.SignatureText | tgalib/tgalib.go:96 | the last 18 bytes spell "TRUEVISION-XFILE." followed by a zero byte |
| TgaFile.Trailer | tgalib/tgalib.go:86-96 | the footer is 8 zero bytes (developer and extension area offsets) then the signature |
| TgaFile.Payload | tgalib/tgalib.go:75-85 | without RLE the image data is the pixel buffer verbatim; with RLE it is writeRleData's output as written (RlePayloadDecodes, OverflowFile) |
| TgaFile.FileBytes | tgalib/tgalib.go:53-102 | the file is always 44 bytes longer than its image data: 18 header bytes before it, 26 footer bytes after it |
| TgaFile.FileParts | tgalib/tgalib.go:53-102 | the file is header, then image data, then footer |
| TgaFile.FileLayout | tgalib/tgalib.go:59-96 | byte 2 is the type code, bytes 12-15 are width and height little-endian, byte 16 is 24, byte 17 is 0x20, the other header bytes are zero; data and footer follow |
| TgaFile.FlagChangesTypeAndPayload | tgalib/tgalib.go:63-85 | the RLE flag changes only the type byte and the image data section of the file |
| TgaFile.FileHeaderReads | tgalib/tgalib.go:59-71 | reading the first 18 bytes of the file gives the header that was written |
| TgaFile.RlePayloadDecodes | tgalib/tgalib.go:75-79 | in an RLE file the image data decodes back to the pixel buffer whenever no raw packet exceeds 85 pixels |
| TgaFile.OverflowFile | tgalib/tgalib.go:75-79 | the RLE file of an 86×1 image of alternating pixels is 47 bytes long and its 3-byte image data does not decode |
| TgaFile.FileBytesWide | tgalib/tgalib.go:144 | the corrected RLE file has the same header and footer as the written one, around the corrected encoder's data |
| TgaFile.FileBytesWideDecodes | tgalib/tgalib.go:75-79 | the corrected file's image data decodes back to the pixel buffer, for every image |
| TgaFile.FileBytesWideAgrees | tgalib/tgalib.go:144 | whenever no raw packet exceeds 85 pixels, the corrected file is byte for byte the file WriteTgaFile writes |
| TgaFile.WriteTgaFile | tgalib/tgalib.go:53-102 | the bytes written, in the order of the write calls, are exactly the file layout above |
| Bresenham.Abs | main.go:11-17 | the result is non-negative, is v or −v, and is v exactly when v ≥ 0 |
| Bresenham.Normalize | main.go:20-29 | after the swaps the sweep runs left to right along the major axis, the minor-axis change is at most the major-axis change, steepness holds exactly when |dx| < |dy|, and un-swapping the ends gives the original end points in some order |
| Bresenham.Calls | main.go:19-51 | `line` makes max(|x1−x0|, |y1−y0|) + 1 SetRGBColor calls, one per step along the major axis |
| Bresenham.Paint | main.go:36-40 | SetRGBColor applied to each point in turn, each error discarded, keeps the dimensions, the nil flag and validity |
| Bresenham.OffBounds | main.go:30-49 | the chosen minor-axis offset at column k is within half a pixel of the true line (ties toward the start) |
| Bresenham.OffUnique | main.go:30-49 | that offset is the only integer within half a pixel |
| Bresenham.ErrStep | main.go:41-49 | one step of the error update keeps err = 2·|dy|·k − 2·dx·offset and steps the offset exactly when err exceeds dx |
| Bresenham.Sweep | main.go:35-50 | the loop makes one SetRGBColor call per column, and the k-th call is the nearest-pixel point of column k |
| Bresenham.Line | main.go:19-51 | the calls `line` makes are the reference sequence of nearest pixels, and the image is those calls' SetRGBColor results applied in order |
| Bresenham.PaintSnoc | main.go:36-40 | each call paints on the image left by the previous calls |
| Bresenham.PaintBytes | main.go:36-40 | after painting, a byte covered by some in-image point holds the colour, and every other byte keeps its old value |
| Bresenham.LineBytes | main.go:19-51 | `line` changes only the bytes of in-image pixels on the line, and those take the colour |
| Bresenham.OffRange | main.go:41-49 | y never leaves the span between the end points' minor coordinates |
| Bresenham.OffStep | main.go:42-49 | the offset from the start row grows by 0 or 1 per column, so y moves by at most one step (up or down, as the sign of y1−y0 says) |
| Bresenham.OffEnds | main.go:30-49 | the offset is 0 at the first column and |dy| at the last |
| Bresenham.CallsEndpoints | main.go:19-51 | the first and last calls are the two end points, and a zero-length segment makes exactly one call |
| Bresenham.CallsConnected | main.go:35-50 | consecutive calls are distinct 8-neighbours |
| Bresenham.CallsInBox | main.go:19-51 | every call lies in the bounding box of the end points |
| Bresenham.CallsSymmetric | main.go:19-51 | swapping the end points gives the same calls |
| Bresenham.CallsHorizontal | main.go:19-51 | a horizontal segment from (0,0) to (4,0) plots the five points along it |
| Bresenham.CallsVertical | main.go:19-51 | a vertical segment from (0,0) to (0,4) plots the five points along it |
| Bresenham.CallsDiagonal | main.go:19-51 | a 45° segment from (0,0) to (4,4) plots the five diagonal points |

## Left out

- File creation, `defer file.Close()` and every `binary.Write` error path (tgalib/tgalib.go:54-58 and the error returns): the file is a returned byte sequence, and I/O failure is not modelled.
- model/model.go (the OBJ loader) and `main()` in main.go: they are outside the modelled core.
- Go's `int` and `uint64` overflow: widths, heights, `width*height*3` and the coordinates in `abs`/`line` are unbounded integers. An image so large that these wrap is not modelled.
- The `Format` type is declared but unused, so it has no counterpart.
- TgaImage.NewTGAImage: requires non-negative dimensions. The source also accepts a negative width or height when `width*height*3` is not negative, and builds an image with those negative dimensions; every image in this model has non-negative dimensions.
- Bresenham.Line: the errors that SetRGBColor returns for points outside the image are discarded, as in the source. The model therefore states what is painted, not an error value.
- Bresenham.Sweep: requires the normalised frame that `line` establishes before its loop.

## Findings

| source | as written | input that shows it | evidently intended | confidence | as-written member | corrected member |
|---|---|---|---|---|---|---|
| tgalib/tgalib.go:144 | `uint64(run_length*3)` multiplies in `byte`, so a raw packet of 86..128 pixels writes (3·length) mod 256 payload bytes, while its count byte announces 3·length | 86 pixels alternating black and blue 1 (bytes 1, 0, 0), e.g. an 86×1 image: count byte 85 (86 pixels), only 2 payload bytes; the file is 47 bytes and a decoder finds the stream truncated | `uint64(run_length)*3`: write all 3·length bytes | not executed | RleDecode.OverflowLosesPixels (with Rle.RleBytes and TgaFile.OverflowFile) | RleDecode.RoundTripWide (with Rle.RleBytesWide and TgaFile.FileBytesWideDecodes) |

=== FILE: bresenham.dfy ===
/**
  The integer line rasteriser of main.go (`abs` and `line`). The segment is
  turned so that x is the dominant axis (steep lines swap x and y) and so
  that it runs left to right; one pixel is written per x, and an error
  accumulator decides when y moves one step towards the end point.

  The reference for the loop is the pixel nearest to the ideal line in
  every column: with dx = x1-x0 and ady = |y1-y0|, column k gets the offset
  `Off(dx, ady, k)`, the integer `o` with -dx < 2*ady*k - 2*dx*o <= dx, that
  is the rounding of ady*k/dx with halves rounded towards the start point.
 */
module Bresenham {
  import opened TgaImage

  /** main.abs. */
  function Abs(v: int): (r: int)
    ensures r >= 0
    ensures r == v || r == -v
    ensures r == v <==> v >= 0
  {
    if v >= 0 then v else v * -1
  }

  /** A pixel coordinate as passed to SetRGBColor. */
  datatype Point = Point(x: int, y: int)

  /**
    The segment after the two swaps at the start of `line`: `steep` says x
    and y were exchanged, and (x0, y0) is the left end.
   */
  datatype Frame = Frame(steep: bool, x0: int, y0: int, x1: int, y1: int)

  /** The point (a, b) of the turned frame, in image coordinates. */
  function Unturn(steep: bool, a: int, b: int): Point
  {
    if steep then Point(b, a) else Point(a, b)
  }

  /** The steep swap (lines 21-25) and the endpoint-order swap (lines 26-29) of `line`. */
  function Normalize(x0: int, y0: int, x1: int, y1: int): (f: Frame)
    ensures f.x0 <= f.x1
    ensures Abs(f.y1 - f.y0) <= f.x1 - f.x0
    ensures f.steep <==> Abs(x0 - x1) < Abs(y0 - y1)
    ensures var a, b := Unturn(f.steep, f.x0, f.y0), Unturn(f.steep, f.x1, f.y1);
            (a, b) == (Point(x0, y0), Point(x1, y1)) || (a, b) == (Point(x1, y1), Point(x0, y0))
  {
    var steep := Abs(x0 - x1) < Abs(y0 - y1);
    var (a0, b0, a1, b1) := if steep then (y0, x0, y1, x1) else (x0, y0, x1, y1);
    if a0 > a1 then Frame(steep, a1, b1, a0, b0) else Frame(steep, a0, b0, a1, b1)
  }

  /**
    How many steps y has moved by column `k`: the integer `o` with
    -dx < 2*ady*k - 2*dx*o <= dx (OffBounds, OffUnique); 0 for a single
    column.
   */
  function Off(dx: int, ady: int, k: int): int
    requires dx >= 0
  {
    if dx == 0 then 0 else (2 * ady * k + dx - 1) / (2 * dx)
  }

  lemma OffBounds(dx: int, ady: int, k: int)
    requires dx > 0
    ensures -dx < 2 * ady * k - 2 * dx * Off(dx, ady, k) <= dx
  {
  }

  lemma OffUnique(dx: int, ady: int, k: int, o: int)
    requires dx > 0
    requires -dx < 2 * ady * k - 2 * dx * o <= dx
    ensures o == Off(dx, ady, k)
  {
    var o2 := Off(dx, ady, k);
    OffBounds(dx, ady, k);
    if o < o2 {
      Arith.MulMono(o + 1, o2, 2 * dx);
    } else if o2 < o {
      Arith.MulMono(o2 + 1, o, 2 * dx);
    }
  }

  /** The pixel the reference puts in column `k` of frame `f`. */
  function Plot(f: Frame, k: int): Point
    requires f.x0 <= f.x1
  {
    var o := Off(f.x1 - f.x0, Abs(f.y1 - f.y0), k);
    Unturn(f.steep, f.x0 + k, if f.y1 > f.y0 then f.y0 + o else f.y0 - o)
  }

  /** The coordinates `line` passes to SetRGBColor, in order. */
  function Calls(x0: int, y0: int, x1: int, y1: int): (ps: seq<Point>)
    ensures |ps| == (if Abs(x1 - x0) < Abs(y1 - y0) then Abs(y1 - y0) else Abs(x1 - x0)) + 1
  {
    var f := Normalize(x0, y0, x1, y1);
    seq(f.x1 - f.x0 + 1, k requires 0 <= k => Plot(f, k))
  }

  /**
    One step of the error accumulator (lines 41-49 of main.go): `err` grows
    by 2*ady and, once it passes dx, y moves and `err` drops by 2*dx. It
    keeps err == 2*ady*k - 2*dx*off, and `off` stays the reference offset.
   */
  lemma ErrStep(dx: int, ady: int, k: int, off: int, err: int)
    requires 0 <= ady <= dx && k >= 0
    requires err == 2 * ady * k - 2 * dx * off
    requires dx > 0 ==> -dx < err <= dx
    requires dx == 0 ==> err == 0
    ensures var e := err + 2 * ady;
            var o2 := if e > dx then off + 1 else off;
            var e2 := if e > dx then e - 2 * dx else e;
            && e2 == 2 * ady * (k + 1) - 2 * dx * o2
            && (dx > 0 ==> -dx < e2 <= dx && o2 == Off(dx, ady, k + 1))
            && (dx == 0 ==> e2 == 0 && o2 == off)
  {
    var e := err + 2 * ady;
    var o2 := if e > dx then off + 1 else off;
    var e2 := if e > dx then e - 2 * dx else e;
    Arith.MulSucc(k, 2 * ady);
    assert 2 * ady * (k + 1) == 2 * ady * k + 2 * ady;
    assert 2 * dx * (off + 1) == 2 * dx * off + 2 * dx;
    if dx > 0 {
      OffUnique(dx, ady, k + 1, o2);
    }
  }

  /** SetRGBColor applied for every point in turn, each result discarded. */
  function Paint(img: Image, ps: seq<Point>, c: RGBColor): (r: Image)
    requires Valid(img)
    ensures Valid(r) && r.width == img.width && r.height == img.height && r.nilData == img.nilData
    decreases |ps|
  {
    if ps == [] then img
    else Paint(SetRGBColor(img, ps[0].x, ps[0].y, c).image, ps[1..], c)
  }

  /** Column `k` of the reference, once dx, |dy| and the offset are known. */
  lemma PlotAt(f: Frame, k: int, dx: int, ady: int, off: int)
    requires f.x0 <= f.x1 && dx == f.x1 - f.x0 && ady == Abs(f.y1 - f.y0) && off == Off(dx, ady, k)
    ensures Plot(f, k) == Unturn(f.steep, f.x0 + k, if f.y1 > f.y0 then f.y0 + off else f.y0 - off)
  {
  }

  /**
    The loop of main.line (lines 30-50) on the turned segment `f`: one
    SetRGBColor per column from f.x0 to f.x1, undoing the steep swap.
   */
  method Sweep(f: Frame, img: Image, color: RGBColor) returns (calls: seq<Point>, out: Image)
    requires Valid(img) && f.x0 <= f.x1 && Abs(f.y1 - f.y0) <= f.x1 - f.x0
    ensures |calls| == f.x1 - f.x0 + 1
    ensures forall i :: 0 <= i < |calls| ==> calls[i] == Plot(f, i)
    ensures out == Paint(img, calls, color)
  {
    var steep, x0, y0, x1, y1 := f.steep, f.x0, f.y0, f.x1, f.y1;
    var dx := x1 - x0;
    var dy := y1 - y0;
    var derr := Abs(dy) * 2;
    ghost var ady := Abs(dy);
    var err := 0;
    var y := y0;
    calls := [];
    out := img;
    ghost var off := 0;
    ghost var k := 0;
    var x := x0;
    while x <= x1
      invariant x == x0 + k && 0 <= k <= dx + 1
      invariant |calls| == k && forall i :: 0 <= i < k ==> calls[i] == Plot(f, i)
      invariant Paint(img, calls, color) == out
      invariant off == Off(dx, ady, k)
      invariant y == if y1 > y0 then y0 + off else y0 - off
      invariant err == 2 * ady * k - 2 * dx * off
      invariant dx > 0 ==> -dx < err <= dx
      invariant dx == 0 ==> err == 0
    {
      var p := if steep then Point(y, x) else Point(x, y);
      PlotAt(f, k, dx, ady, off);
      var w := SetRGBColor(out, p.x, p.y, color);
      PaintSnoc(img, calls, p, color);
      calls, out := calls + [p], w.image;
      ErrStep(dx, ady, k, off, err);
      err := err + derr;
      if err > dx {
        if y1 > y0 {
          y := y + 1;
        } else {
          y := y - 1;
        }
        err := err - dx * 2;
        off := off + 1;
      }
      x, k := x + 1, k + 1;
    }
  }

  /**
    main.line: the SetRGBColor calls it makes and the image they leave. The
    errors SetRGBColor returns for points outside the image are ignored.
   */
  method Line(x0: int, y0: int, x1: int, y1: int, img: Image, color: RGBColor)
    returns (calls: seq<Point>, out: Image)
    requires Valid(img)
    ensures calls == Calls(x0, y0, x1, y1)
    ensures out == Paint(img, calls, color)
  {
    var steep := false;
    var ax0, ay0, ax1, ay1 := x0, y0, x1, y1;
    if Abs(ax0 - ax1) < Abs(ay0 - ay1) {
      ay0, ax0 := ax0, ay0;
      ay1, ax1 := ax1, ay1;
      steep := true;
    }
    if ax0 > ax1 {
      ax1, ax0 := ax0, ax1;
      ay1, ay0 := ay0, ay1;
    }
    var f := Frame(steep, ax0, ay0, ax1, ay1);
    assert f == Normalize(x0, y0, x1, y1);
    calls, out := Sweep(f, img, color);
  }

  /** Painting one more point is one more SetRGBColor on the painted image. */
  lemma {:induction false} PaintSnoc(img: Image, ps: seq<Point>, p: Point, c: RGBColor)
    requires Valid(img)
    ensures Paint(img, ps + [p], c) == SetRGBColor(Paint(img, ps, c), p.x, p.y, c).image
    decreases |ps|
  {
    if ps != [] {
      var img' := SetRGBColor(img, ps[0].x, ps[0].y, c).image;
      assert (ps + [p])[1..] == ps[1..] + [p];
      PaintSnoc(img', ps[1..], p, c);
    }
  }

  /** Byte `i` belongs to the in-image pixel `p`, which SetRGBColor would write. */
  predicate Covers(img: Image, p: Point, i: int)
  {
    Writable(img, p.x, p.y) && Offset(img.width, p.x, p.y) <= i < Offset(img.width, p.x, p.y) + 3
  }

  /** Some point of `ps` is an in-image pixel that byte `i` belongs to. */
  predicate Covered(img: Image, ps: seq<Point>, i: int)
  {
    exists k :: 0 <= k < |ps| && Covers(img, ps[k], i)
  }

  /** One SetRGBColor, byte by byte: the colour where the pixel is written, the old byte elsewhere. */
  lemma SetByte(img: Image, p: Point, c: RGBColor, i: int)
    requires Valid(img) && 0 <= i < |img.data|
    ensures SetRGBColor(img, p.x, p.y, c).image.data[i]
         == if Covers(img, p, i) then ColorBytes(c)[i % 3] else img.data[i]
  {
  }

  /**
    What a sequence of SetRGBColor calls leaves in byte `i`: the colour's
    byte if some in-image point covers it, the original byte otherwise. In
    particular nothing outside the image's written pixels changes.
   */
  lemma {:induction false} PaintBytes(img: Image, ps: seq<Point>, c: RGBColor, i: int)
    requires Valid(img) && 0 <= i < |img.data|
    ensures Paint(img, ps, c).data[i] == if Covered(img, ps, i) then ColorBytes(c)[i % 3] else img.data[i]
    decreases |ps|
  {
    if ps != [] {
      var img' := SetRGBColor(img, ps[0].x, ps[0].y, c).image;
      PaintBytes(img', ps[1..], c, i);
      SetByte(img, ps[0], c, i);
      if Covered(img, ps, i) && !Covers(img, ps[0], i) {
        var k :| 0 <= k < |ps| && Covers(img, ps[k], i);
        assert Covers(img', ps[1..][k - 1], i);
      }
      if Covered(img', ps[1..], i) {
        var k :| 0 <= k < |ps[1..]| && Covers(img', ps[1..][k], i);
        assert Covers(img, ps[k + 1], i);
      }
    }
  }

  /** `line` changes only bytes of in-image pixels it draws, and those become the colour. */
  lemma LineBytes(x0: int, y0: int, x1: int, y1: int, img: Image, c: RGBColor, i: int)
    requires Valid(img) && 0 <= i < |img.data|
    ensures var out := Paint(img, Calls(x0, y0, x1, y1), c);
            && (out.data[i] != img.data[i] ==> Covered(img, Calls(x0, y0, x1, y1), i))
            && (Covered(img, Calls(x0, y0, x1, y1), i) ==> out.data[i] == ColorBytes(c)[i % 3])
  {
    PaintBytes(img, Calls(x0, y0, x1, y1), c, i);
  }

  /** The offset stays between 0 and |dy|: y never leaves the span of the end points. */
  lemma OffRange(dx: int, ady: int, k: int)
    requires 0 <= ady <= dx && 0 <= k <= dx
    ensures 0 <= Off(dx, ady, k) <= ady
  {
    if dx > 0 {
      var a := 2 * ady * k + dx - 1;
      Arith.MulNonneg(2 * ady, k);
      Arith.MulMono(k, dx, 2 * ady);
      assert a < 2 * dx * (ady + 1);
      DivBelow(a, 2 * dx, ady + 1);
    }
  }

  /** Division by a positive `d` keeps a value of [0, d*m) in [0, m). */
  lemma DivBelow(a: int, d: int, m: int)
    requires d > 0 && 0 <= a < d * m
    ensures 0 <= a / d < m
  {
  }

  /** From one column to the next the offset grows by 0 or 1. */
  lemma OffStep(dx: int, ady: int, k: int)
    requires 0 <= ady <= dx && 0 <= k
    ensures Off(dx, ady, k + 1) - Off(dx, ady, k) in {0, 1}
  {
    if dx > 0 {
      var o1, o2 := Off(dx, ady, k), Off(dx, ady, k + 1);
      OffBounds(dx, ady, k);
      OffBounds(dx, ady, k + 1);
      var d := o2 - o1;
      assert 2 * ady * (k + 1) == 2 * ady * k + 2 * ady;
      assert 2 * dx * o2 - 2 * dx * o1 == 2 * dx * d;
      if d < 0 {
        Arith.MulMono(d, -1, 2 * dx);
      }
      if d > 1 {
        Arith.MulMono(2, d, 2 * dx);
      }
    }
  }

  /** The first column has offset 0 and the last one offset |dy|. */
  lemma OffEnds(dx: int, ady: int)
    requires 0 <= ady <= dx
    ensures Off(dx, ady, 0) == 0
    ensures Off(dx, ady, dx) == ady
  {
    if dx > 0 {
      OffUnique(dx, ady, 0, 0);
      OffUnique(dx, ady, dx, ady);
    }
  }

  /** The first and last calls are the two end points; a zero-length segment is one call. */
  lemma CallsEndpoints(x0: int, y0: int, x1: int, y1: int)
    ensures var ps := Calls(x0, y0, x1, y1);
            var a, b := ps[0], ps[|ps| - 1];
            (a, b) == (Point(x0, y0), Point(x1, y1)) || (a, b) == (Point(x1, y1), Point(x0, y0))
    ensures x0 == x1 && y0 == y1 ==> Calls(x0, y0, x1, y1) == [Point(x0, y0)]
  {
    var f := Normalize(x0, y0, x1, y1);
    var dx, ady := f.x1 - f.x0, Abs(f.y1 - f.y0);
    OffEnds(dx, ady);
    PlotAt(f, 0, dx, ady, 0);
    PlotAt(f, dx, dx, ady, ady);
  }

  /** Consecutive calls are neighbouring pixels: one step along the major axis, at most one across. */
  lemma CallsConnected(x0: int, y0: int, x1: int, y1: int)
    ensures var ps := Calls(x0, y0, x1, y1);
            forall k :: 0 <= k < |ps| - 1 ==>
              && Abs(ps[k + 1].x - ps[k].x) <= 1 && Abs(ps[k + 1].y - ps[k].y) <= 1
              && ps[k + 1] != ps[k]
  {
    var f := Normalize(x0, y0, x1, y1);
    var ps := Calls(x0, y0, x1, y1);
    forall k | 0 <= k < |ps| - 1
      ensures Abs(ps[k + 1].x - ps[k].x) <= 1 && Abs(ps[k + 1].y - ps[k].y) <= 1
      ensures ps[k + 1] != ps[k]
    {
      PlotNeighbours(f, k);
    }
  }

  /** Columns `k` and `k+1` of the reference are neighbouring, distinct pixels. */
  lemma PlotNeighbours(f: Frame, k: int)
    requires f.x0 <= f.x1 && Abs(f.y1 - f.y0) <= f.x1 - f.x0 && 0 <= k
    ensures var p, q := Plot(f, k), Plot(f, k + 1);
            Abs(q.x - p.x) <= 1 && Abs(q.y - p.y) <= 1 && q != p
  {
    var dx, ady := f.x1 - f.x0, Abs(f.y1 - f.y0);
    OffStep(dx, ady, k);
    PlotAt(f, k, dx, ady, Off(dx, ady, k));
    PlotAt(f, k + 1, dx, ady, Off(dx, ady, k + 1));
  }

  /** Every call lies in the box spanned by the two end points. */
  lemma CallsInBox(x0: int, y0: int, x1: int, y1: int)
    ensures forall p :: p in Calls(x0, y0, x1, y1) ==>
              && (x0 <= p.x <= x1 || x1 <= p.x <= x0)
              && (y0 <= p.y <= y1 || y1 <= p.y <= y0)
  {
    var f := Normalize(x0, y0, x1, y1);
    var ps := Calls(x0, y0, x1, y1);
    var dx, ady := f.x1 - f.x0, Abs(f.y1 - f.y0);
    forall k | 0 <= k < |ps|
      ensures (x0 <= ps[k].x <= x1 || x1 <= ps[k].x <= x0) && (y0 <= ps[k].y <= y1 || y1 <= ps[k].y <= y0)
    {
      OffRange(dx, ady, k);
      PlotAt(f, k, dx, ady, Off(dx, ady, k));
    }
  }

  /** Drawing from either end gives the same calls in the same order. */
  lemma CallsSymmetric(x0: int, y0: int, x1: int, y1: int)
    ensures Calls(x0, y0, x1, y1) == Calls(x1, y1, x0, y0)
  {
    assert Normalize(x0, y0, x1, y1) == Normalize(x1, y1, x0, y0);
  }

  /** A horizontal segment: one call per column, y fixed. */
  lemma CallsHorizontal()
    ensures Calls(0, 0, 4, 0) == [Point(0, 0), Point(1, 0), Point(2, 0), Point(3, 0), Point(4, 0)]
  {
  }

  /** A vertical segment is steep: one call per row, x fixed. */
  lemma CallsVertical()
    ensures Calls(0, 0, 0, 4) == [Point(0, 0), Point(0, 1), Point(0, 2), Point(0, 3), Point(0, 4)]
  {
    assert Normalize(0, 0, 0, 4) == Frame(true, 0, 0, 4, 0);
  }

  /** A diagonal segment steps both coordinates every time. */
  lemma CallsDiagonal()
    ensures Calls(0, 0, 4, 4) == [Point(0, 0), Point(1, 1), Point(2, 2), Point(3, 3), Point(4, 4)]
  {
  }
}

=== FILE: bytes.dfy ===
/** Go bytes, shared by the image, encoder and file modules. */
module Bytes {

  /**
    Go's `byte`. Go's byte arithmetic wraps modulo 256; here that
    wrap-around is written out by Add8, Sub8 and Mul8.
   */
  newtype byte = x: int | 0 <= x < 256

  /** Go `a + b` on bytes. */
  function Add8(a: byte, b: byte): (r: byte)
    ensures r as int == (a as int + b as int) % 256
  {
    ((a as int + b as int) % 256) as byte
  }

  /** Go `a - b` on bytes. */
  function Sub8(a: byte, b: byte): (r: byte)
    ensures r as int == (a as int - b as int) % 256
  {
    ((a as int - b as int) % 256) as byte
  }

  /** Go `a * b` on bytes. */
  function Mul8(a: byte, b: byte): (r: byte)
    ensures r as int == (a as int * b as int) % 256
  {
    ((a as int * b as int) % 256) as byte
  }

  /** `n` zero bytes, the contents of a fresh `make([]byte, n)`. */
  function Zeros(n: nat): (r: seq<byte>)
    ensures |r| == n
    ensures forall i :: 0 <= i < n ==> r[i] == 0
  {
    seq(n, _ => 0)
  }
}

/** Small facts about multiplication that the solver does not always find unaided. */
module Arith {

  lemma MulMono(a: int, b: int, c: int)
    requires a <= b && 0 <= c
    ensures a * c <= b * c
  {
  }

  lemma MulSucc(a: int, c: int)
    ensures (a + 1) * c == a * c + c
  {
  }

  lemma MulNonneg(a: int, b: int)
    requires 0 <= a && 0 <= b
    ensures 0 <= a * b
  {
  }
}

=== FILE: rle.dfy ===
/**
  The run-length encoder of tgalib (writeRleData) for the true-colour RLE
  image type (Image Type 10) of the Truevision TGA File Format
  Specification v2.0.

  The pixel stream is cut, left to right, into packets of 1 to 128 pixels.
  A run packet is two or more equal pixels and is written as the count
  byte `len+127` followed by one pixel; a raw packet is written as the count
  byte `len-1` followed by its pixels. The encoder computes the raw payload
  length as `run_length*3` in Go `byte` arithmetic, so a raw packet of 86
  pixels or more is written short; `wide` selects the corrected product
  `uint64(run_length)*3` instead.
 */
module Rle {
  import opened Bytes

  /** writeRleData's `max_chunk_length`: no packet covers more pixels. */
  const MaxChunk: nat := 128

  /** Pixel `i` of a B,G,R byte stream. */
  function Pixel(data: seq<byte>, i: nat): (px: seq<byte>)
    requires 3 * i + 3 <= |data|
    ensures |px| == 3
  {
    data[3 * i .. 3 * i + 3]
  }

  /**
    Pixels `i` and `i+1` are equal, compared byte by byte as the comparison
    loop of writeRleData does: `succ_eq` after that loop.
   */
  predicate Same(data: seq<byte>, i: nat)
    requires 3 * i + 6 <= |data|
  {
    var b := 3 * i;
    data[b] == data[b + 3] && data[b + 1] == data[b + 4] && data[b + 2] == data[b + 5]
  }

  /** Comparing bytes in turn is comparing the two pixels. */
  lemma SamePixels(data: seq<byte>, i: nat)
    requires 3 * i + 6 <= |data|
    ensures Same(data, i) <==> Pixel(data, i) == Pixel(data, i + 1)
  {
    var b := 3 * i;
    PixelBytes(data, i, b);
    PixelBytes(data, i + 1, b + 3);
  }

  /** A pixel is its three bytes. */
  lemma PixelBytes(data: seq<byte>, i: nat, b: nat)
    requires b == 3 * i && b + 3 <= |data|
    ensures Pixel(data, i) == [data[b], data[b + 1], data[b + 2]]
  {
  }

  /**
    The scan of writeRleData's inner loop: how many of the neighbouring
    pairs (s, s+1), (s+1, s+2), ... in a row, at most `cap` of them, are
    equal (`eq`) or unequal (`!eq`).
   */
  function Span(data: seq<byte>, n: nat, s: nat, eq: bool, cap: nat): (k: nat)
    requires |data| == 3 * n && s < n
    ensures k <= cap && s + k < n
    ensures forall i :: s <= i < s + k ==> Same(data, i) == eq
    ensures k < cap && s + k + 1 < n ==> Same(data, s + k) != eq
    decreases cap
  {
    if cap == 0 || s + 1 >= n || Same(data, s) != eq then 0
    else 1 + Span(data, n, s + 1, eq, cap - 1)
  }

  /** One packet: `len` pixels from pixel `start`, raw or a run. */
  datatype Packet = Packet(raw: bool, start: nat, len: nat)

  /** The packet lies within `n` pixels and within the size limit. */
  predicate Fits(n: nat, p: Packet)
  {
    1 <= p.len <= MaxChunk && p.start + p.len <= n
  }

  /**
    Where writeRleData ends a packet starting at `p.start`, stated without
    the scan. A run covers equal neighbours only and ends at the size limit,
    at the end of the image, or before the first pixel that differs. A raw
    packet starts at a pixel that differs from the next one, covers unequal
    neighbours only, and ends at the size limit, at the end of the image, or
    (when the scan could still look ahead) just before a pixel that equals
    its successor. A raw packet stopped by the size limit may end on a pixel
    equal to the next one.
   */
  predicate Cut(data: seq<byte>, n: nat, p: Packet)
    requires |data| == 3 * n
  {
    var s, len := p.start, p.len;
    && Fits(n, p)
    && (!p.raw ==>
          && len >= 2
          && (forall i :: s <= i < s + len - 1 ==> Same(data, i))
          && (len == MaxChunk || s + len == n || !Same(data, s + len - 1)))
    && (p.raw ==>
          && (forall i :: s <= i < s + len - 1 ==> !Same(data, i))
          && (s + 1 < n ==> !Same(data, s))
          && (len == MaxChunk || s + len == n ||
              (len < MaxChunk - 1 && s + len + 1 < n && Same(data, s + len) && !Same(data, s + len - 1))))
  }

  /** At most one packet can start at a given pixel. */
  lemma CutUnique(data: seq<byte>, n: nat, p: Packet, q: Packet)
    requires |data| == 3 * n
    requires Cut(data, n, p) && Cut(data, n, q) && p.start == q.start
    ensures p == q
  {
    var s := p.start;
    if s + 1 < n {
      assert p.raw == !Same(data, s);
      assert q.raw == !Same(data, s);
    }
    if p.len < q.len {
      CutShorter(data, n, p, q);
    } else if q.len < p.len {
      CutShorter(data, n, q, p);
    }
  }

  lemma CutShorter(data: seq<byte>, n: nat, p: Packet, q: Packet)
    requires |data| == 3 * n
    requires Cut(data, n, p) && Cut(data, n, q) && p.start == q.start && p.raw == q.raw
    ensures p.len >= q.len
  {
  }

  /** The packet writeRleData emits at pixel `s`. */
  function NextPacket(data: seq<byte>, n: nat, s: nat): (p: Packet)
    requires |data| == 3 * n && s < n
    ensures p.start == s && Fits(n, p)
  {
    if s + 1 < n && Same(data, s) then
      Packet(false, s, 1 + Span(data, n, s, true, MaxChunk - 1))
    else
      var m := Span(data, n, s, false, MaxChunk - 1);
      Packet(true, s, if m < MaxChunk - 1 && s + m + 1 < n then m else m + 1)
  }

  /** The packet writeRleData emits ends where `Cut` says it must. */
  lemma NextPacketCut(data: seq<byte>, n: nat, s: nat)
    requires |data| == 3 * n && s < n
    ensures Cut(data, n, NextPacket(data, n, s))
  {
  }

  /** `ps` are consecutive packets covering pixels `s` up to `n`, in order. */
  predicate Tiles(ps: seq<Packet>, s: nat, n: nat)
    decreases |ps|
  {
    if ps == [] then s == n
    else ps[0].start == s && 1 <= ps[0].len && Tiles(ps[1..], s + ps[0].len, n)
  }

  /** The packets writeRleData emits from pixel `s` on. */
  function Greedy(data: seq<byte>, n: nat, s: nat): (ps: seq<Packet>)
    requires |data| == 3 * n && s <= n
    ensures forall j :: 0 <= j < |ps| ==> Fits(n, ps[j])
    decreases n - s
  {
    if s == n then []
    else
      var p := NextPacket(data, n, s);
      [p] + Greedy(data, n, s + p.len)
  }

  /** The packets writeRleData emits cover the pixels from `s` on, in order. */
  lemma {:induction false} GreedyTiles(data: seq<byte>, n: nat, s: nat)
    requires |data| == 3 * n && s <= n
    ensures Tiles(Greedy(data, n, s), s, n)
    decreases n - s
  {
    if s < n {
      var p := NextPacket(data, n, s);
      var next := s + p.len;
      GreedyStep(data, n, s, next);
      GreedyTiles(data, n, next);
      var ps := Greedy(data, n, s);
      assert ps[0] == p && ps[1..] == Greedy(data, n, next);
    }
  }

  /** Every packet writeRleData emits is cut where the scan cuts it. */
  lemma {:induction false} GreedyCut(data: seq<byte>, n: nat, s: nat)
    requires |data| == 3 * n && s <= n
    ensures forall j :: 0 <= j < |Greedy(data, n, s)| ==> Cut(data, n, Greedy(data, n, s)[j])
    decreases n - s
  {
    if s < n {
      var p := NextPacket(data, n, s);
      GreedyCut(data, n, s + p.len);
      NextPacketCut(data, n, s);
    }
  }

  /** Every pixel of a run packet equals its first pixel. */
  lemma {:induction false} RunConstant(data: seq<byte>, n: nat, p: Packet, i: nat)
    requires |data| == 3 * n && Cut(data, n, p) && !p.raw
    requires p.start <= i < p.start + p.len
    ensures Pixel(data, i) == Pixel(data, p.start)
    decreases i
  {
    if i > p.start {
      RunConstant(data, n, p, i - 1);
      SamePixels(data, i - 1);
    }
  }

  /** Where no two neighbours are equal, the raw scan runs to the cap or the end. */
  lemma {:induction false} DistinctSpan(data: seq<byte>, n: nat, s: nat, cap: nat)
    requires |data| == 3 * n && s < n
    requires forall i :: s <= i < n - 1 ==> !Same(data, i)
    ensures Span(data, n, s, false, cap) == if cap <= n - 1 - s then cap else n - 1 - s
    decreases cap
  {
    if cap > 0 && s + 1 < n {
      DistinctSpan(data, n, s + 1, cap - 1);
    }
  }

  /** Where no two neighbours are equal, writeRleData writes raw packets only. */
  lemma DistinctAllRaw(data: seq<byte>, n: nat)
    requires |data| == 3 * n
    requires forall i :: 0 <= i < n - 1 ==> !Same(data, i)
    ensures forall j :: 0 <= j < |Greedy(data, n, 0)| ==> Greedy(data, n, 0)[j].raw
  {
    GreedyCut(data, n, 0);
    forall j | 0 <= j < |Greedy(data, n, 0)|
      ensures Greedy(data, n, 0)[j].raw
    {
      var p := Greedy(data, n, 0)[j];
      assert Cut(data, n, p);
      assert p.start + 1 < n ==> !Same(data, p.start);
    }
  }

  /**
    The count byte: `run_length-1` for raw and `run_length+127` for a run,
    in Go byte arithmetic.
   */
  function CountByte(p: Packet): (c: byte)
    requires 1 <= p.len <= MaxChunk
    ensures p.raw ==> c as int == p.len - 1 && c < 128
    ensures !p.raw ==> c as int == p.len + 127 && c >= 128
  {
    if p.raw then Sub8(p.len as byte, 1) else Add8(p.len as byte, 127)
  }

  /**
    The raw payload length `uint64(run_length*3)`: the product is taken in
    `byte` before it is widened, so it wraps once past 85 pixels. With
    `wide` it is `uint64(run_length)*3`.
   */
  function RawPayloadLength(len: nat, wide: bool): (k: nat)
    requires 1 <= len <= MaxChunk
    ensures wide || len <= 85 ==> k == 3 * len
    ensures !wide && len >= 86 ==> k == 3 * len - 256
  {
    if wide then 3 * len else Mul8(len as byte, 3) as int
  }

  /** The bytes written for one packet: the count byte, then the payload. */
  function PacketBytes(data: seq<byte>, n: nat, p: Packet, wide: bool): (r: seq<byte>)
    requires |data| == 3 * n && Fits(n, p)
    ensures |r| >= 1 && r[0] == CountByte(p)
    ensures !p.raw ==> r[1..] == Pixel(data, p.start)
    ensures p.raw ==> r[1..] == data[3 * p.start .. 3 * p.start + RawPayloadLength(p.len, wide)]
  {
    var at := 3 * p.start;
    [CountByte(p)] +
    (if p.raw then data[at .. at + RawPayloadLength(p.len, wide)] else data[at .. at + 3])
  }

  /** The packets' bytes one after the other. */
  function Serialize(data: seq<byte>, n: nat, ps: seq<Packet>, wide: bool): seq<byte>
    requires |data| == 3 * n
    requires forall j :: 0 <= j < |ps| ==> Fits(n, ps[j])
  {
    if ps == [] then [] else PacketBytes(data, n, ps[0], wide) + Serialize(data, n, ps[1..], wide)
  }

  /**
    What writeRleData still has to write once it has reached pixel `s`;
    `wide` selects the corrected raw payload length.
   */
  function Rest(data: seq<byte>, n: nat, s: nat, wide: bool): seq<byte>
    requires |data| == 3 * n && s <= n
  {
    Serialize(data, n, Greedy(data, n, s), wide)
  }

  /**
    What writeRleData writes for an image of `n` pixels: nothing for an
    empty image, otherwise a stream that opens with the count byte of the
    packet at pixel 0.
   */
  function RleBytes(data: seq<byte>, n: nat): (r: seq<byte>)
    requires |data| == 3 * n
    ensures r == [] <==> n == 0
    ensures n > 0 ==> r[0] == CountByte(NextPacket(data, n, 0))
  {
    if n == 0 then [] else
      RestStep(data, n, 0, NextPacket(data, n, 0).len, false);
      Rest(data, n, 0, false)
  }

  /** The same packets with the raw payload length computed without wrap-around. */
  function RleBytesWide(data: seq<byte>, n: nat): seq<byte>
    requires |data| == 3 * n
  {
    Rest(data, n, 0, true)
  }

  /**
    The comparison loop of writeRleData (`for t := 0; succ_eq && t < 3; t++`):
    whether the pixel at byte `curbyte` equals the one after it.
   */
  method SuccEq(data: seq<byte>, curbyte: nat) returns (succEq: bool)
    requires curbyte % 3 == 0 && curbyte + 6 <= |data|
    ensures succEq == Same(data, curbyte / 3)
  {
    succEq := true;
    var t := 0;
    while succEq && t < 3
      invariant 0 <= t <= 3
      invariant succEq <==> forall u :: curbyte <= u < curbyte + t ==> data[u] == data[u + 3]
    {
      succEq := data[curbyte + t] == data[curbyte + t + 3];
      t := t + 1;
    }
  }

  /**
    The scan of writeRleData from pixel `curpix`: how many pixels the next
    packet covers and whether it is raw, including the back-off by one when
    a raw packet meets two equal pixels.
   */
  method ScanPacket(data: seq<byte>, npixels: nat, curpix: nat) returns (raw: bool, runLength: nat)
    requires |data| == 3 * npixels && curpix < npixels
    ensures Fits(npixels, Packet(raw, curpix, runLength))
    ensures Packet(raw, curpix, runLength) == NextPacket(data, npixels, curpix)
  {
    var curbyte := curpix * 3;
    runLength := 1;
    raw := true;
    while curpix + runLength < npixels && runLength < MaxChunk
      invariant 1 <= runLength <= MaxChunk && curpix + runLength <= npixels
      invariant curbyte == 3 * (curpix + runLength - 1)
      invariant runLength >= 2 && !raw ==>
                  forall i :: curpix <= i < curpix + runLength - 1 ==> Same(data, i)
      invariant runLength >= 2 && raw ==>
                  forall i :: curpix <= i < curpix + runLength - 1 ==> !Same(data, i)
      invariant runLength == 1 ==> raw
    {
      var succEq := SuccEq(data, curbyte);
      curbyte := curbyte + 3;
      if runLength == 1 {
        raw := !succEq;
      }
      if raw && succEq {
        runLength := runLength - 1;
        assert Cut(data, npixels, Packet(raw, curpix, runLength));
        break;
      }
      if !raw && !succEq {
        assert Cut(data, npixels, Packet(raw, curpix, runLength));
        break;
      }
      runLength := runLength + 1;
    }
    NextPacketCut(data, npixels, curpix);
    CutUnique(data, npixels, Packet(raw, curpix, runLength), NextPacket(data, npixels, curpix));
  }

  /**
    The two binary.Write calls of writeRleData for one packet: the count
    byte, then either `run_length*3` bytes (computed in `byte`) or one pixel.
   */
  method EmitPacket(data: seq<byte>, npixels: nat, raw: bool, curpix: nat, runLength: nat, wide: bool)
    returns (bytes: seq<byte>)
    requires |data| == 3 * npixels && Fits(npixels, Packet(raw, curpix, runLength))
    ensures bytes == PacketBytes(data, npixels, Packet(raw, curpix, runLength), wide)
  {
    var chankstart := curpix * 3;
    if raw {
      bytes := [Sub8(runLength as byte, 1)];
    } else {
      bytes := [Add8(runLength as byte, 127)];
    }
    if raw {
      var payload := if wide then runLength * 3 else Mul8(runLength as byte, 3) as int;
      bytes := bytes + data[chankstart .. chankstart + payload];
    } else {
      bytes := bytes + data[chankstart .. chankstart + 3];
    }
  }

  /** The packets from pixel `s` on are the packet at `s`, then those from `next`. */
  lemma GreedyStep(data: seq<byte>, n: nat, s: nat, next: nat)
    requires |data| == 3 * n && s < n && next == s + NextPacket(data, n, s).len
    ensures next <= n
    ensures Greedy(data, n, s) == [NextPacket(data, n, s)] + Greedy(data, n, next)
  {
  }

  /** The bytes from pixel `s` on are the packet at `s`, then the bytes after it. */
  lemma RestStep(data: seq<byte>, n: nat, s: nat, next: nat, wide: bool)
    requires |data| == 3 * n && s < n && next == s + NextPacket(data, n, s).len
    ensures next <= n
    ensures Rest(data, n, s, wide) == PacketBytes(data, n, NextPacket(data, n, s), wide) + Rest(data, n, next, wide)
  {
    GreedyStep(data, n, s, next);
    assert Greedy(data, n, s)[1..] == Greedy(data, n, next);
  }

  /** The outer loop's invariant survives writing one packet. */
  lemma EmitKeeps(data: seq<byte>, n: nat, s: nat, next: nat, wide: bool, out: seq<byte>, after: seq<byte>)
    requires |data| == 3 * n && s < n && next == s + NextPacket(data, n, s).len
    requires after == out + PacketBytes(data, n, NextPacket(data, n, s), wide)
    ensures next <= n
    ensures after + Rest(data, n, next, wide) == out + Rest(data, n, s, wide)
  {
    RestStep(data, n, s, next, wide);
    AppendAssoc(out, PacketBytes(data, n, NextPacket(data, n, s), wide), Rest(data, n, next, wide));
  }

  lemma AppendAssoc(a: seq<byte>, b: seq<byte>, c: seq<byte>)
    ensures a + (b + c) == a + b + c
  {
  }

  /**
    One pass of the outer loop of tgalib.writeRleData: scan the packet at
    `curpix`, write it, and move past it.
   */
  method WritePacket(data: seq<byte>, npixels: nat, wide: bool, curpix: nat, out: seq<byte>)
    returns (out': seq<byte>, curpix': nat)
    requires |data| == 3 * npixels && curpix < npixels
    requires out + Rest(data, npixels, curpix, wide) == Rest(data, npixels, 0, wide)
    ensures curpix < curpix' <= npixels
    ensures out' + Rest(data, npixels, curpix', wide) == Rest(data, npixels, 0, wide)
  {
    var raw, runLength := ScanPacket(data, npixels, curpix);
    var packet := EmitPacket(data, npixels, raw, curpix, runLength, wide);
    out' := out + packet;
    curpix' := curpix + runLength;
    EmitKeeps(data, npixels, curpix, curpix', wide, out, out');
  }

  /**
    tgalib.writeRleData on `npixels = width*height` pixels, with the bytes
    handed to binary.Write collected in `out`. The code as written is
    `wide == false`; `wide == true` is the corrected payload length.
   */
  method WriteRleData(data: seq<byte>, npixels: nat, wide: bool) returns (out: seq<byte>)
    requires |data| == 3 * npixels
    ensures !wide ==> out == RleBytes(data, npixels)
    ensures wide ==> out == RleBytesWide(data, npixels)
  {
    out := [];
    var curpix := 0;
    while curpix < npixels
      invariant curpix <= npixels
      invariant out + Rest(data, npixels, curpix, wide) == Rest(data, npixels, 0, wide)
      decreases npixels - curpix
    {
      out, curpix := WritePacket(data, npixels, wide, curpix, out);
    }
  }
}

=== FILE: rle_decode.dfy ===
/**
  The reading side of Image Type 10 of the Truevision TGA File Format
  Specification v2.0: a count byte with the high bit set is a run of
  `c-127` copies of the next pixel, otherwise it is `c+1` raw pixels.

  It inverts the corrected encoder for every image (RoundTripWide). It
  inverts writeRleData as written when no raw packet is longer than 85
  pixels (RoundTrip); 86 pixels of alternating colours are a smallest input
  that breaks it (OverflowLosesPixels).
 */
module RleDecode {
  import opened Bytes
  import opened Rle

  /** The result of a decoder that can fail. */
  datatype Option<+T> = None | Some(value: T)

  /** `m` copies of the pixel `px`. */
  function Repeat(px: seq<byte>, m: nat): (r: seq<byte>)
    requires |px| == 3
    ensures |r| == 3 * m
    ensures forall i :: 0 <= i < |r| ==> r[i] == px[i % 3]
  {
    if m == 0 then [] else px + Repeat(px, m - 1)
  }

  /** Prefixes `px` to a successful decoding and passes a failure on. */
  function Prepend(px: seq<byte>, r: Option<seq<byte>>): (q: Option<seq<byte>>)
    ensures q.Some? <==> r.Some?
    ensures r.Some? && |px| % 3 == 0 && |r.value| % 3 == 0 ==> |q.value| % 3 == 0
  {
    match r
    case None => None
    case Some(v) => Some(px + v)
  }

  /** The payload a count byte announces: 3 bytes for a run, 3 per pixel for raw. */
  function PayloadLength(c: byte): (k: nat)
    ensures c >= 128 ==> k == 3
    ensures c < 128 ==> k == 3 * (c as int + 1)
  {
    if c >= 128 then 3 else 3 * (c as int + 1)
  }

  /** The pixels of one packet, count byte first and payload complete. */
  function PacketPixels(pb: seq<byte>): (px: seq<byte>)
    requires pb != [] && |pb| == 1 + PayloadLength(pb[0])
    ensures |px| % 3 == 0
  {
    var c := pb[0];
    if c >= 128 then Repeat(pb[1 .. 4], c as int - 127) else pb[1..]
  }

  /** Decodes an RLE payload; `None` when a packet is cut short. */
  function Decode(bs: seq<byte>): (r: Option<seq<byte>>)
    ensures r.Some? ==> |r.value| % 3 == 0
    ensures r.Some? && bs != [] ==> |bs| > PayloadLength(bs[0])
    decreases |bs|
  {
    if bs == [] then Some([])
    else
      var c := bs[0];
      var k := PayloadLength(c);
      if |bs| < 1 + k then None
      else
        Prepend(PacketPixels(bs[.. 1 + k]), Decode(bs[1 + k ..]))
  }

  /** Equal neighbours all the way through make the bytes one pixel repeated. */
  lemma {:induction false} ConstantRepeat(data: seq<byte>, s: nat, len: nat)
    requires 3 * (s + len) <= |data| && len >= 1
    requires forall i :: s <= i < s + len - 1 ==> Same(data, i)
    ensures data[3 * s .. 3 * (s + len)] == Repeat(Pixel(data, s), len)
    decreases len
  {
    if len > 1 {
      ConstantRepeat(data, s + 1, len - 1);
      SamePixels(data, s);
      assert data[3 * s .. 3 * (s + len)] == Pixel(data, s) + data[3 * (s + 1) .. 3 * (s + len)];
    } else {
      assert Repeat(Pixel(data, s), 0) == [];
    }
  }

  /** The payload length equals three bytes per pixel. */
  predicate Intact(p: Packet, wide: bool)
  {
    wide || !p.raw || p.len <= 85
  }

  /** A raw packet of `m` pixels decodes to its payload. */
  lemma DecodeRaw(pb: seq<byte>, m: nat, rest: seq<byte>)
    requires 1 <= m <= MaxChunk && |pb| == 1 + 3 * m && pb[0] as int == m - 1
    ensures Decode(pb + rest) == Prepend(pb[1..], Decode(rest))
  {
    var bs := pb + rest;
    assert bs[.. 1 + 3 * m] == pb;
    assert bs[1 + 3 * m ..] == rest;
  }

  /** A run packet of `m` pixels decodes to `m` copies of its pixel. */
  lemma DecodeRun(pb: seq<byte>, m: nat, rest: seq<byte>)
    requires 2 <= m <= MaxChunk && |pb| == 4 && pb[0] as int == m + 127
    ensures Decode(pb + rest) == Prepend(Repeat(pb[1..], m), Decode(rest))
  {
    var bs := pb + rest;
    assert bs[.. 4] == pb;
    assert pb[1 .. 4] == pb[1..];
    assert PacketPixels(pb) == Repeat(pb[1..], m);
    assert bs[4 ..] == rest;
  }

  /** Decoding one packet's bytes gives back the pixels it covers. */
  lemma DecodePacket(data: seq<byte>, n: nat, p: Packet, s: nat, next: nat, wide: bool, rest: seq<byte>)
    requires |data| == 3 * n && Cut(data, n, p) && Intact(p, wide)
    requires s == p.start && next == s + p.len
    ensures Decode(PacketBytes(data, n, p, wide) + rest) == Prepend(data[3 * s .. 3 * next], Decode(rest))
  {
    if p.raw {
      DecodeRawPacket(data, n, p, s, next, wide, rest);
    } else {
      ConstantRepeat(data, s, p.len);
      DecodeRunPacket(data, n, p, s, next, wide, rest);
    }
  }

  lemma DecodeRawPacket(data: seq<byte>, n: nat, p: Packet, s: nat, next: nat, wide: bool, rest: seq<byte>)
    requires |data| == 3 * n && Fits(n, p) && p.raw && Intact(p, wide)
    requires s == p.start && next == s + p.len
    ensures Decode(PacketBytes(data, n, p, wide) + rest) == Prepend(data[3 * s .. 3 * next], Decode(rest))
  {
    DecodeRaw(PacketBytes(data, n, p, wide), p.len, rest);
  }

  lemma DecodeRunPacket(data: seq<byte>, n: nat, p: Packet, s: nat, next: nat, wide: bool, rest: seq<byte>)
    requires |data| == 3 * n && Fits(n, p) && !p.raw && p.len >= 2
    requires s == p.start && next == s + p.len
    requires data[3 * s .. 3 * next] == Repeat(Pixel(data, s), p.len)
    ensures Decode(PacketBytes(data, n, p, wide) + rest) == Prepend(data[3 * s .. 3 * next], Decode(rest))
  {
    DecodeRun(PacketBytes(data, n, p, wide), p.len, rest);
  }

  /** Every packet from pixel `s` on has its full payload. */
  predicate AllIntact(data: seq<byte>, n: nat, s: nat, wide: bool)
    requires |data| == 3 * n && s <= n
  {
    forall j :: 0 <= j < |Greedy(data, n, s)| ==> Intact(Greedy(data, n, s)[j], wide)
  }

  /** Decoding from pixel `s` on starts with the pixels of the packet at `s`. */
  lemma DecodeNext(data: seq<byte>, n: nat, s: nat, next: nat, wide: bool)
    requires |data| == 3 * n && s < n && next == s + NextPacket(data, n, s).len
    requires AllIntact(data, n, s, wide)
    ensures next <= n && AllIntact(data, n, next, wide)
    ensures Decode(Rest(data, n, s, wide))
         == Prepend(data[3 * s .. 3 * next], Decode(Rest(data, n, next, wide)))
  {
    var p := NextPacket(data, n, s);
    GreedyStep(data, n, s, next);
    RestStep(data, n, s, next, wide);
    assert Greedy(data, n, s)[0] == p;
    assert forall j :: 0 <= j < |Greedy(data, n, next)| ==>
             Greedy(data, n, next)[j] == Greedy(data, n, s)[j + 1];
    NextPacketCut(data, n, s);
    DecodePacket(data, n, p, s, next, wide, Rest(data, n, next, wide));
  }

  /** Decoding `data[b..]` after decoding `data[a..b]` decodes `data[a..]`. */
  lemma Glue(data: seq<byte>, a: nat, b: nat, d: Option<seq<byte>>, rest: Option<seq<byte>>)
    requires a <= b <= |data|
    requires d == Prepend(data[a .. b], rest) && rest == Some(data[b ..])
    ensures d == Some(data[a ..])
  {
    assert data[a ..] == data[a .. b] + data[b ..];
  }

  /** Decoding the bytes written from pixel `s` on gives back those pixels. */
  lemma {:induction false} DecodeRest(data: seq<byte>, n: nat, s: nat, wide: bool)
    requires |data| == 3 * n && s <= n && AllIntact(data, n, s, wide)
    ensures Decode(Rest(data, n, s, wide)) == Some(data[3 * s ..])
    decreases n - s
  {
    if s < n {
      var next := s + NextPacket(data, n, s).len;
      DecodeNext(data, n, s, next, wide);
      DecodeRest(data, n, next, wide);
      Glue(data, 3 * s, 3 * next, Decode(Rest(data, n, s, wide)), Decode(Rest(data, n, next, wide)));
    } else {
      assert Greedy(data, n, s) == [];
      assert Rest(data, n, s, wide) == [];
      assert data[3 * s ..] == [];
    }
  }

  /** With the corrected payload length the encoding always decodes to the image. */
  lemma RoundTripWide(data: seq<byte>, n: nat)
    requires |data| == 3 * n
    ensures Decode(RleBytesWide(data, n)) == Some(data)
  {
    DecodeRest(data, n, 0, true);
  }

  /** As written, the encoding decodes to the image when no raw packet exceeds 85 pixels. */
  lemma RoundTrip(data: seq<byte>, n: nat)
    requires |data| == 3 * n && AllIntact(data, n, 0, false)
    ensures Decode(RleBytes(data, n)) == Some(data)
  {
    DecodeRest(data, n, 0, false);
  }

  /** Packets with full payloads are written the same either way. */
  lemma {:induction false} SerializeIntact(data: seq<byte>, n: nat, ps: seq<Packet>)
    requires |data| == 3 * n
    requires forall j :: 0 <= j < |ps| ==> Fits(n, ps[j]) && Intact(ps[j], false)
    ensures Serialize(data, n, ps, false) == Serialize(data, n, ps, true)
    decreases |ps|
  {
    if ps != [] {
      PacketIntact(data, n, ps[0]);
      SerializeIntact(data, n, ps[1..]);
    }
  }

  /** A packet with a full payload is written the same either way. */
  lemma PacketIntact(data: seq<byte>, n: nat, p: Packet)
    requires |data| == 3 * n && Fits(n, p) && Intact(p, false)
    ensures PacketBytes(data, n, p, false) == PacketBytes(data, n, p, true)
  {
  }

  /** Without long raw packets the code as written and the corrected code agree. */
  lemma SameAsWide(data: seq<byte>, n: nat)
    requires |data| == 3 * n && AllIntact(data, n, 0, false)
    ensures RleBytes(data, n) == RleBytesWide(data, n)
  {
    SerializeIntact(data, n, Greedy(data, n, 0));
  }

  /** `n` pixels alternating between black and blue 1 (bytes 1, 0, 0): no two neighbours are equal. */
  function Alternating(n: nat): (d: seq<byte>)
    ensures |d| == 3 * n
  {
    seq(3 * n, k => if k % 3 == 0 then ((k / 3) % 2) as byte else 0)
  }

  /** No pixel of the alternating image equals its right neighbour. */
  lemma AlternatingDistinct(n: nat)
    ensures forall i :: 0 <= i < n - 1 ==> !Same(Alternating(n), i)
  {
    var d := Alternating(n);
    forall i | 0 <= i < n - 1
      ensures !Same(d, i)
    {
      assert d[3 * i] == (i % 2) as byte;
      assert d[3 * i + 3] == ((i + 1) % 2) as byte;
    }
  }

  /**
    86 alternating pixels make one raw packet whose payload, `86*3` in
    `byte` arithmetic, is 2 bytes instead of 258: the encoding as written
    does not decode, while the corrected one does.
   */
  lemma OverflowLosesPixels()
    ensures RleBytes(Alternating(86), 86) == [85] + Alternating(86)[0 .. 2]
    ensures Decode(RleBytes(Alternating(86), 86)) == None
    ensures !AllIntact(Alternating(86), 86, 0, false)
    ensures Decode(RleBytesWide(Alternating(86), 86)) == Some(Alternating(86))
  {
    var d := Alternating(86);
    AlternatingDistinct(86);
    DistinctSpan(d, 86, 0, MaxChunk - 1);
    var p := NextPacket(d, 86, 0);
    assert p == Packet(true, 0, 86);
    GreedyStep(d, 86, 0, 86);
    RestStep(d, 86, 0, 86, false);
    assert Greedy(d, 86, 0) == [p];
    assert PacketBytes(d, 86, p, false) == [85] + d[0 .. 2];
    RoundTripWide(d, 86);
  }
}

=== FILE: tga_file.dfy ===
/**
  The bytes tgalib.WriteTgaFile produces: the 18-byte header (Fields 1-5 of
  the Truevision TGA File Format Specification v2.0, written little-endian
  by binary.Write), the image data (raw, Image Type 2, or run-length
  encoded, Image Type 10), the developer and extension area references
  (4 zero bytes each) and the 18-byte signature, which together form the
  TGA 2.0 file footer.
 */
module TgaFile {
  import opened Bytes
  import opened TgaImage
  import opened Rle
  import RleDecode

  /** Go's `int16`. */
  newtype int16 = x: int | -0x8000 <= x < 0x8000

  /** Go `int16(v)`: keeps the low 16 bits, read as two's complement. */
  function ToInt16(v: int): (r: int16)
    ensures (r as int - v) % 0x1_0000 == 0
    ensures -0x8000 <= v < 0x8000 ==> r as int == v
  {
    ((v + 0x8000) % 0x1_0000 - 0x8000) as int16
  }

  /** An `int16` as binary.Write puts it with binary.LittleEndian: low byte first. */
  function Int16Bytes(v: int16): (r: seq<byte>)
    ensures |r| == 2
    ensures r[0] as int + 256 * r[1] as int == v as int % 0x1_0000
  {
    var u := v as int % 0x1_0000;
    [(u % 256) as byte, (u / 256) as byte]
  }

  /** Reads two little-endian bytes back as an `int16`. */
  function Int16From(lo: byte, hi: byte): (v: int16)
    ensures v as int % 0x1_0000 == lo as int + 256 * hi as int
  {
    ToInt16(lo as int + 256 * hi as int)
  }

  lemma Int16RoundTrip(v: int16)
    ensures Int16From(Int16Bytes(v)[0], Int16Bytes(v)[1]) == v
  {
  }

  lemma Int16BytesRoundTrip(lo: byte, hi: byte)
    ensures Int16Bytes(Int16From(lo, hi)) == [lo, hi]
  {
    var u := lo as int + 256 * hi as int;
    var r := Int16Bytes(Int16From(lo, hi));
    assert r[0] as int + 256 * r[1] as int == u;
  }

  /** tgalib's `tga_header`, field by field in the order binary.Write emits them. */
  datatype Header = Header(
    idLength: byte,
    colorMapType: byte,
    dataTypeCode: byte,
    colorMapOrigin: int16,
    colorMapLength: int16,
    colorMapDepth: byte,
    xOrigin: int16,
    yOrigin: int16,
    width: int16,
    height: int16,
    bitsPerPixel: byte,
    imageDescriptor: byte)

  /** binary.Write of a `tga_header`: 18 bytes, no padding. */
  function EncodeHeader(h: Header): (r: seq<byte>)
    ensures |r| == 18
    ensures r[0] == h.idLength && r[1] == h.colorMapType && r[2] == h.dataTypeCode
    ensures r[3 .. 5] == Int16Bytes(h.colorMapOrigin) && r[5 .. 7] == Int16Bytes(h.colorMapLength)
    ensures r[7] == h.colorMapDepth
    ensures r[8 .. 10] == Int16Bytes(h.xOrigin) && r[10 .. 12] == Int16Bytes(h.yOrigin)
    ensures r[12 .. 14] == Int16Bytes(h.width) && r[14 .. 16] == Int16Bytes(h.height)
    ensures r[16] == h.bitsPerPixel && r[17] == h.imageDescriptor
  {
    var o, l := Int16Bytes(h.colorMapOrigin), Int16Bytes(h.colorMapLength);
    var x, y := Int16Bytes(h.xOrigin), Int16Bytes(h.yOrigin);
    var w, t := Int16Bytes(h.width), Int16Bytes(h.height);
    var r := [h.idLength, h.colorMapType, h.dataTypeCode, o[0], o[1], l[0], l[1], h.colorMapDepth,
              x[0], x[1], y[0], y[1], w[0], w[1], t[0], t[1], h.bitsPerPixel, h.imageDescriptor];
    PairAt(r, 3, o);
    PairAt(r, 5, l);
    PairAt(r, 8, x);
    PairAt(r, 10, y);
    PairAt(r, 12, w);
    PairAt(r, 14, t);
    r
  }

  /** Two bytes of `r` from `i` on that equal the two bytes of `p` are the slice `p`. */
  lemma PairAt(r: seq<byte>, i: nat, p: seq<byte>)
    requires |p| == 2 && i + 2 <= |r| && r[i] == p[0] && r[i + 1] == p[1]
    ensures r[i .. i + 2] == p
  {
    assert r[i .. i + 2][0] == p[0] && r[i .. i + 2][1] == p[1];
  }

  /** Reads a header from the first 18 bytes. */
  function DecodeHeader(bs: seq<byte>): (h: Header)
    requires |bs| >= 18
    ensures h.dataTypeCode == bs[2] && h.bitsPerPixel == bs[16] && h.imageDescriptor == bs[17]
  {
    Header(bs[0], bs[1], bs[2],
           Int16From(bs[3], bs[4]), Int16From(bs[5], bs[6]),
           bs[7],
           Int16From(bs[8], bs[9]), Int16From(bs[10], bs[11]),
           Int16From(bs[12], bs[13]), Int16From(bs[14], bs[15]),
           bs[16], bs[17])
  }

  lemma HeaderRoundTrip(h: Header)
    ensures DecodeHeader(EncodeHeader(h)) == h
  {
    Int16RoundTrip(h.colorMapOrigin);
    Int16RoundTrip(h.colorMapLength);
    Int16RoundTrip(h.xOrigin);
    Int16RoundTrip(h.yOrigin);
    Int16RoundTrip(h.width);
    Int16RoundTrip(h.height);
  }

  lemma HeaderBytesRoundTrip(bs: seq<byte>)
    requires |bs| == 18
    ensures EncodeHeader(DecodeHeader(bs)) == bs
  {
    Int16BytesRoundTrip(bs[3], bs[4]);
    Int16BytesRoundTrip(bs[5], bs[6]);
    Int16BytesRoundTrip(bs[8], bs[9]);
    Int16BytesRoundTrip(bs[10], bs[11]);
    Int16BytesRoundTrip(bs[12], bs[13]);
    Int16BytesRoundTrip(bs[14], bs[15]);
  }

  /** The Image Type: 10 (run-length encoded true-colour) or 2 (uncompressed true-colour). */
  function TypeCode(rle: bool): (c: byte)
    ensures c == 10 || c == 2
    ensures rle <==> c == 10
  {
    if rle then 10 else 2
  }

  /**
    The header WriteTgaFile fills in: 24 bits per pixel, the dimensions
    truncated to `int16`, the image type, and descriptor 0x20 (origin at the
    top left). Every other field keeps its zero value.
   */
  function FileHeader(img: Image, rle: bool): (h: Header)
    ensures h.dataTypeCode == TypeCode(rle) && h.bitsPerPixel == 24 && h.imageDescriptor == 0x20
    ensures h.width as int % 0x1_0000 == img.width % 0x1_0000
    ensures h.height as int % 0x1_0000 == img.height % 0x1_0000
  {
    Header(0, 0, TypeCode(rle), 0, 0, 0, 0, 0,
           ToInt16(img.width), ToInt16(img.height), 3 * 8, 0x20)
  }

  /** The signature "TRUEVISION-XFILE." and its terminating zero byte. */
  const Signature: seq<byte> :=
    [0x54, 0x52, 0x55, 0x45, 0x56, 0x49, 0x53, 0x49, 0x4F, 0x4E, 0x2D, 0x58, 0x46, 0x49, 0x4C, 0x45, 0x2E, 0x00]

  lemma SignatureText()
    ensures |Signature| == 18 && Signature[17] == 0
    ensures forall i :: 0 <= i < 17 ==> Signature[i] as int == "TRUEVISION-XFILE."[i] as int
  {
  }

  /** The developer and extension area references (both zero), then the signature. */
  function Trailer(): (r: seq<byte>)
    ensures |r| == 26
    ensures forall i :: 0 <= i < 8 ==> r[i] == 0
    ensures r[8..] == Signature
  {
    Zeros(4) + Zeros(4) + Signature
  }

  /** The image data: `data` verbatim, or the packets writeRleData writes. */
  function Payload(img: Image, rle: bool): (r: seq<byte>)
    requires Valid(img)
    ensures !rle ==> r == img.data
  {
    if rle then RleBytes(img.data, img.width * img.height) else img.data
  }

  /** Everything WriteTgaFile writes when no write fails. */
  function FileBytes(img: Image, rle: bool): (r: seq<byte>)
    requires Valid(img)
    ensures |r| == 18 + |Payload(img, rle)| + 26
  {
    EncodeHeader(FileHeader(img, rle)) + Payload(img, rle) + Trailer()
  }

  /** The file is the header, then the image data, then the footer. */
  lemma FileParts(img: Image, rle: bool)
    requires Valid(img)
    ensures var r := FileBytes(img, rle);
            && r[..18] == EncodeHeader(FileHeader(img, rle))
            && r[18 .. |r| - 26] == Payload(img, rle)
            && r[|r| - 26 ..] == Trailer()
  {
    var e, p := EncodeHeader(FileHeader(img, rle)), Payload(img, rle);
    var r := FileBytes(img, rle);
    assert r == e + p + Trailer();
  }

  /** The file's fixed byte positions. */
  lemma FileLayout(img: Image, rle: bool)
    requires Valid(img)
    ensures var r, w, h := FileBytes(img, rle), img.width % 0x1_0000, img.height % 0x1_0000;
            && r[2] == TypeCode(rle)
            && r[12] as int == w % 256 && r[13] as int == w / 256
            && r[14] as int == h % 256 && r[15] as int == h / 256
            && r[16] == 24 && r[17] == 0x20
            && (forall i :: 0 <= i < 12 && i != 2 ==> r[i] == 0)
            && r[18 .. |r| - 26] == Payload(img, rle)
            && r[|r| - 26 ..] == Trailer()
  {
  }

  /** Choosing RLE changes the image type byte and the image data, nothing else. */
  lemma FlagChangesTypeAndPayload(img: Image)
    requires Valid(img)
    ensures var a, b := FileBytes(img, true), FileBytes(img, false);
            && (forall i :: 0 <= i < 18 && i != 2 ==> a[i] == b[i])
            && a[2] == 10 && b[2] == 2
            && a[18 .. |a| - 26] == RleBytes(img.data, img.width * img.height)
            && b[18 .. |b| - 26] == img.data
            && a[|a| - 26 ..] == b[|b| - 26 ..]
  {
    FileParts(img, true);
    FileParts(img, false);
    var a, b := FileBytes(img, true), FileBytes(img, false);
    var ea, eb := EncodeHeader(FileHeader(img, true)), EncodeHeader(FileHeader(img, false));
    HeadersDifferInType(img);
    assert forall i :: 0 <= i < 18 ==> a[i] == ea[i] && b[i] == eb[i];
  }

  lemma HeadersDifferInType(img: Image)
    ensures var ea, eb := EncodeHeader(FileHeader(img, true)), EncodeHeader(FileHeader(img, false));
            forall i :: 0 <= i < 18 && i != 2 ==> ea[i] == eb[i]
  {
    var ha, hb := FileHeader(img, true), FileHeader(img, false);
    assert ha == hb.(dataTypeCode := 10);
  }

  /** A reader finds the header WriteTgaFile meant to write. */
  lemma FileHeaderReads(img: Image, rle: bool)
    requires Valid(img)
    ensures DecodeHeader(FileBytes(img, rle)) == FileHeader(img, rle)
  {
    var r := FileBytes(img, rle);
    assert r[..18] == EncodeHeader(FileHeader(img, rle));
    HeaderRoundTrip(FileHeader(img, rle));
  }

  /**
    The image data of an RLE file decodes back to the pixels whenever no raw
    packet is longer than 85 pixels (OverflowFile shows a longer one).
   */
  lemma RlePayloadDecodes(img: Image)
    requires Valid(img) && RleDecode.AllIntact(img.data, img.width * img.height, 0, false)
    ensures RleDecode.Decode(Payload(img, true)) == RleDecode.Some(img.data)
  {
    RleDecode.RoundTrip(img.data, img.width * img.height);
  }

  /**
    The RLE file of an 86 by 1 image of alternating pixels: one raw packet
    whose payload length wraps to 2 bytes, so the file is 47 bytes long and
    its image data does not decode.
   */
  lemma OverflowFile()
    ensures var img := Image(RleDecode.Alternating(86), 86, 1, false);
            && Valid(img)
            && |FileBytes(img, true)| == 47
            && RleDecode.Decode(FileBytes(img, true)[18 .. 21]) == RleDecode.None
  {
    var img := Image(RleDecode.Alternating(86), 86, 1, false);
    RleDecode.OverflowLosesPixels();
    FileParts(img, true);
  }

  /**
    The RLE file with writeRleData's raw payload length computed without
    byte wrap-around (`uint64(run_length)*3`).
   */
  function FileBytesWide(img: Image): (r: seq<byte>)
    requires Valid(img)
    ensures |r| == 18 + |RleBytesWide(img.data, img.width * img.height)| + 26
    ensures r[..18] == EncodeHeader(FileHeader(img, true)) && r[|r| - 26 ..] == Trailer()
  {
    var e, p := EncodeHeader(FileHeader(img, true)), RleBytesWide(img.data, img.width * img.height);
    var r := e + p + Trailer();
    assert r[..18] == e && r[|r| - 26 ..] == Trailer();
    r
  }

  /** The corrected file's image data decodes back to the pixels, for every image. */
  lemma FileBytesWideDecodes(img: Image)
    requires Valid(img)
    ensures var r := FileBytesWide(img);
            RleDecode.Decode(r[18 .. |r| - 26]) == RleDecode.Some(img.data)
  {
    var e, p := EncodeHeader(FileHeader(img, true)), RleBytesWide(img.data, img.width * img.height);
    var r := FileBytesWide(img);
    assert r == e + p + Trailer();
    assert r[18 .. |r| - 26] == p;
    RleDecode.RoundTripWide(img.data, img.width * img.height);
  }

  /**
    When no raw packet is longer than 85 pixels, the corrected file is byte
    for byte the file WriteTgaFile writes.
   */
  lemma FileBytesWideAgrees(img: Image)
    requires Valid(img) && RleDecode.AllIntact(img.data, img.width * img.height, 0, false)
    ensures FileBytesWide(img) == FileBytes(img, true)
  {
    RleDecode.SameAsWide(img.data, img.width * img.height);
  }

  /**
    tgalib.WriteTgaFile with the file replaced by the sequence of bytes
    written to it, in the order of the binary.Write calls.
   */
  method WriteTgaFile(img: Image, rle: bool) returns (file: seq<byte>)
    requires Valid(img)
    ensures file == FileBytes(img, rle)
  {
    var header := FileHeader(img, rle);
    file := EncodeHeader(header);
    if rle {
      var packets := WriteRleData(img.data, img.width * img.height, false);
      file := file + packets;
    } else {
      file := file + img.data;
    }
    var devAreaRef := Zeros(4);
    file := file + devAreaRef;
    var extAreaRef := Zeros(4);
    file := file + extAreaRef;
    file := file + Signature;
  }
}

=== FILE: tga_image.dfy ===
/**
  The pixel buffer of tgalib: a flat byte sequence of `width*height` pixels,
  three bytes per pixel in blue, green, red order, stored row by row.
 */
module TgaImage {
  import opened Bytes
  import Arith

  /** tgalib.RGBColor: the three channel bytes in the order they are stored. */
  datatype RGBColor = RGBColor(b: byte, g: byte, r: byte)

  /** The three bytes SetRGBColor copies into the buffer for colour `c`. */
  function ColorBytes(c: RGBColor): seq<byte>
  {
    [c.b, c.g, c.r]
  }

  /** tgalib.NewRGB: takes red, green, blue and keeps them reversed for TGA. */
  function NewRGB(r: byte, g: byte, b: byte): (c: RGBColor)
    ensures ColorBytes(c)[0] == b && ColorBytes(c)[1] == g && ColorBytes(c)[2] == r
  {
    RGBColor(b, g, r)
  }

  /**
    tgalib.TGAImage. Go distinguishes a nil `data` slice from an empty one;
    `nilData` records the former, which only the zero value `TGAImage{}` has.
   */
  datatype Image = Image(data: seq<byte>, width: int, height: int, nilData: bool)

  /** What every image built by NewTGAImage (or the zero value) satisfies. */
  predicate Valid(img: Image)
  {
    && img.width >= 0
    && img.height >= 0
    && |img.data| == img.width * img.height * 3
    && (img.nilData ==> img.data == [])
  }

  /** tgalib.NewTGAImage: a zero-filled buffer; the source validates nothing. */
  function NewTGAImage(width: int, height: int): (img: Image)
    requires width >= 0 && height >= 0
    ensures Valid(img) && !img.nilData
    ensures img.width == width && img.height == height
    ensures |img.data| == width * height * 3
    ensures forall i :: 0 <= i < |img.data| ==> img.data[i] == 0
  {
    Arith.MulNonneg(width, height);
    Image(Zeros(width * height * 3), width, height, false)
  }

  /** The error SetRGBColor returns ("Wrong coordinate"), or none. */
  datatype Status = Ok | WrongCoordinate

  /** The buffer after a SetRGBColor call together with the call's result. */
  datatype Written = Written(image: Image, status: Status)

  /** The condition under which SetRGBColor writes: non-nil data and (x, y) inside the image. */
  predicate Writable(img: Image, x: int, y: int)
  {
    !img.nilData && 0 <= x < img.width && 0 <= y < img.height
  }

  /** Byte offset of pixel (x, y) in a buffer `width` pixels wide. */
  function Offset(width: int, x: int, y: int): int
  {
    (x + y * width) * 3
  }

  lemma OffsetInside(width: int, height: int, x: int, y: int)
    requires 0 <= x < width && 0 <= y < height
    ensures 0 <= Offset(width, x, y)
    ensures Offset(width, x, y) + 3 <= width * height * 3
  {
    Arith.MulNonneg(y, width);
    Arith.MulMono(y + 1, height, width);
    Arith.MulSucc(y, width);
  }

  /**
    tgalib.SetRGBColor. Rejects a nil buffer or a coordinate outside
    [0,width) x [0,height) and leaves the buffer as it was; otherwise copies
    the colour's three bytes to offset (x + y*width)*3.
   */
  function SetRGBColor(img: Image, x: int, y: int, c: RGBColor): (w: Written)
    requires Valid(img)
    ensures Valid(w.image)
    ensures w.image.width == img.width && w.image.height == img.height
    ensures w.image.nilData == img.nilData
    ensures w.status == WrongCoordinate <==>
              (img.nilData || x < 0 || y < 0 || x >= img.width || y >= img.height)
    ensures w.status == WrongCoordinate ==> w.image == img
    ensures w.status == Ok ==>
              var o := Offset(img.width, x, y);
              && 0 <= o && o + 3 <= |img.data|
              && w.image.data[o] == c.b && w.image.data[o + 1] == c.g && w.image.data[o + 2] == c.r
              && forall i :: 0 <= i < |img.data| && !(o <= i < o + 3) ==> w.image.data[i] == img.data[i]
  {
    if !Writable(img, x, y) then
      Written(img, WrongCoordinate)
    else
      OffsetInside(img.width, img.height, x, y);
      var o := Offset(img.width, x, y);
      Written(img.(data := img.data[..o] + ColorBytes(c) + img.data[o + 3..]), Ok)
  }

  /**
    Byte offset of row `j` when rows are `len` bytes long, counted row by
    row so that reasoning about rows stays linear; RowStartIsProduct ties it
    to the source's `j * bytes_per_line`.
   */
  function RowStart(len: nat, j: nat): nat
  {
    if j == 0 then 0 else RowStart(len, j - 1) + len
  }

  lemma {:induction false} RowStartIsProduct(len: nat, j: nat)
    ensures RowStart(len, j) == j * len
  {
    if j > 0 {
      RowStartIsProduct(len, j - 1);
      Arith.MulSucc(j - 1, len);
    }
  }

  /** Rows before row `k` end no later than row `k` starts. */
  lemma {:induction false} RowStartMono(len: nat, j: nat, k: nat)
    requires j < k
    ensures RowStart(len, j) + len <= RowStart(len, k)
    decreases k
  {
    if j < k - 1 {
      RowStartMono(len, j, k - 1);
    }
  }

  /** Every row in `rows` is `len` bytes long. */
  predicate Uniform(rows: seq<seq<byte>>, len: nat)
  {
    forall i :: 0 <= i < |rows| ==> |rows[i]| == len
  }

  /** The `h` rows of `d`, top row first. */
  function Rows(d: seq<byte>, len: nat, h: nat): (rows: seq<seq<byte>>)
    requires |d| == RowStart(len, h)
    ensures |rows| == h && Uniform(rows, len)
    decreases h
  {
    if h == 0 then [] else [d[..len]] + Rows(d[len..], len, h - 1)
  }

  /** The rows laid end to end, as they are stored. */
  function Flatten(rows: seq<seq<byte>>): seq<byte>
  {
    if rows == [] then [] else rows[0] + Flatten(rows[1..])
  }

  /** The rows in the opposite order. */
  function Reverse<T>(s: seq<T>): (r: seq<T>)
    ensures |r| == |s|
    ensures forall i :: 0 <= i < |s| ==> r[i] == s[|s| - 1 - i]
  {
    seq(|s|, i requires 0 <= i < |s| => s[|s| - 1 - i])
  }

  lemma {:induction false} FlattenLength(rows: seq<seq<byte>>, len: nat)
    requires Uniform(rows, len)
    ensures |Flatten(rows)| == RowStart(len, |rows|)
    decreases |rows|
  {
    if rows != [] {
      FlattenLength(rows[1..], len);
    }
  }

  lemma {:induction false} FlattenRows(d: seq<byte>, len: nat, h: nat)
    requires |d| == RowStart(len, h)
    ensures Flatten(Rows(d, len, h)) == d
    decreases h
  {
    if h > 0 {
      var rows := Rows(d, len, h);
      assert rows[1..] == Rows(d[len..], len, h - 1);
      FlattenRows(d[len..], len, h - 1);
      assert d == d[..len] + d[len..];
    }
  }

  lemma {:induction false} RowsFlatten(rows: seq<seq<byte>>, len: nat)
    requires Uniform(rows, len)
    ensures |Flatten(rows)| == RowStart(len, |rows|)
    ensures Rows(Flatten(rows), len, |rows|) == rows
    decreases |rows|
  {
    FlattenLength(rows, len);
    if rows != [] {
      RowsFlatten(rows[1..], len);
      var f := Flatten(rows);
      assert f[..len] == rows[0];
      assert f[len..] == Flatten(rows[1..]);
    }
  }

  /** Row `j` of the flattened rows is found at RowStart(len, j). */
  lemma {:induction false} FlattenRow(rows: seq<seq<byte>>, len: nat, j: nat)
    requires Uniform(rows, len) && j < |rows|
    ensures RowStart(len, j) + len <= |Flatten(rows)|
    ensures Flatten(rows)[RowStart(len, j) .. RowStart(len, j) + len] == rows[j]
    decreases j
  {
    FlattenLength(rows, len);
    RowStartMono(len, j, |rows|);
    if j > 0 {
      FlattenRow(rows[1..], len, j - 1);
      var f := Flatten(rows);
      assert f[len..] == Flatten(rows[1..]);
    }
  }

  /** Go's `copy(d[at:], r)` when `r` fits: bytes at..at+|r| replaced by `r`. */
  function Splice(d: seq<byte>, at: nat, r: seq<byte>): (s: seq<byte>)
    requires at + |r| <= |d|
    ensures |s| == |d|
  {
    d[..at] + r + d[at + |r|..]
  }

  /** Copying a row-sized block over row `j` replaces that row and nothing else. */
  lemma {:induction false} FlattenSplice(rows: seq<seq<byte>>, len: nat, j: nat, r: seq<byte>)
    requires Uniform(rows, len) && j < |rows| && |r| == len
    ensures RowStart(len, j) + len <= |Flatten(rows)|
    ensures Splice(Flatten(rows), RowStart(len, j), r) == Flatten(rows[j := r])
    decreases j
  {
    FlattenLength(rows, len);
    RowStartMono(len, j, |rows|);
    var tail, changed := Flatten(rows[1..]), rows[j := r];
    assert Flatten(rows) == rows[0] + tail;
    if j == 0 {
      assert changed[1..] == rows[1..];
      SpliceHead(rows[0], tail, r);
    } else {
      var at := RowStart(len, j - 1);
      FlattenSplice(rows[1..], len, j - 1, r);
      assert changed[1..] == rows[1..][j - 1 := r];
      SpliceTail(rows[0], tail, at, r, RowStart(len, j));
    }
  }

  /** Copying over the first block of `x + y` replaces it. */
  lemma SpliceHead(x: seq<byte>, y: seq<byte>, r: seq<byte>)
    requires |r| == |x|
    ensures Splice(x + y, 0, r) == r + y
  {
    assert (x + y)[|r|..] == y;
  }

  /** Copying into `y` at `at` is copying into `x + y` at `|x| + at`. */
  lemma SpliceTail(x: seq<byte>, y: seq<byte>, at: nat, r: seq<byte>, at2: nat)
    requires at + |r| <= |y| && at2 == |x| + at
    ensures Splice(x + y, at2, r) == x + Splice(y, at, r)
  {
    assert (x + y)[..at2] == x + y[..at];
    assert (x + y)[at2 + |r|..] == y[at + |r|..];
  }

  /**
    Reference for the vertical flip: the image's rows in reverse order. For
    odd `h` the middle row stays where it is.
   */
  function ReverseRows(d: seq<byte>, len: nat, h: nat): (r: seq<byte>)
    requires |d| == RowStart(len, h)
  {
    Flatten(Reverse(Rows(d, len, h)))
  }

  /** Flipping twice restores the original bytes. */
  lemma ReverseRowsInvolutive(d: seq<byte>, len: nat, h: nat)
    requires |d| == RowStart(len, h)
    ensures |ReverseRows(d, len, h)| == |d|
    ensures ReverseRows(ReverseRows(d, len, h), len, h) == d
  {
    var rows := Rows(d, len, h);
    RowsFlatten(Reverse(rows), len);
    assert Reverse(Reverse(rows)) == rows;
    FlattenRows(d, len, h);
  }

  /** Where row `k` of the partly flipped image comes from after `j` swaps. */
  function SwappedFrom(h: nat, j: nat, k: nat): nat
    requires k < h
  {
    if k < j || h - j <= k then h - 1 - k else k
  }

  /**
    The swap loop's invariant after `j` iterations, on rows: the outer `j`
    rows at each end of `cur` have traded places with respect to `rows`, and
    the rows in between are untouched.
   */
  ghost predicate HalfSwapped(cur: seq<seq<byte>>, rows: seq<seq<byte>>, j: nat)
  {
    && |cur| == |rows|
    && 2 * j <= |rows|
    && forall k :: 0 <= k < |cur| ==> cur[k] == rows[SwappedFrom(|rows|, j, k)]
  }

  /** One more swap of rows j and h-1-j extends the invariant to `j+1`. */
  lemma SwapExtends(cur: seq<seq<byte>>, rows: seq<seq<byte>>, h: nat, j: nat)
    requires HalfSwapped(cur, rows, j) && h == |rows| && 2 * j + 1 < h
    ensures var bottom := h - 1 - j;
            HalfSwapped(cur[j := cur[bottom]][bottom := cur[j]], rows, j + 1)
  {
    var bottom := h - 1 - j;
    var next := cur[j := cur[bottom]][bottom := cur[j]];
    forall k | 0 <= k < |next|
      ensures next[k] == rows[SwappedFrom(|rows|, j + 1, k)]
    {
      if k == j {
        assert next[k] == cur[bottom];
      } else if k == bottom {
        assert next[k] == cur[j];
      } else {
        assert next[k] == cur[k];
      }
    }
  }

  /** Once half the rows are swapped, the rows are exactly reversed. */
  lemma HalfSwappedIsReverse(cur: seq<seq<byte>>, rows: seq<seq<byte>>)
    requires HalfSwapped(cur, rows, |rows| / 2)
    ensures cur == Reverse(rows)
  {
    var h := |rows|;
    forall k | 0 <= k < h
      ensures cur[k] == rows[h - 1 - k]
    {
      assert cur[k] == rows[SwappedFrom(h, h / 2, k)];
    }
  }

  /**
    The `len`-byte blocks at `l1` and `l2` (with `l1` first) exchanged the
    way the flip loop does it: the block at `l1` is saved, the block at `l2`
    is copied over it, and the saved block is copied over the one at `l2`.
   */
  function SwapBlocks(data: seq<byte>, l1: nat, l2: nat, len: nat): (r: seq<byte>)
    ensures |r| == |data|
  {
    if l1 + len <= l2 && l2 + len <= |data| then
      Splice(Splice(data, l1, data[l2 .. l2 + len]), l2, data[l1 .. l1 + len])
    else data
  }

  /** `r` is `data` with rows `a` and `b` exchanged. */
  predicate RowsSwapped(data: seq<byte>, r: seq<byte>, len: nat, a: nat, b: nat)
  {
    SwapBlocks(data, RowStart(len, a), RowStart(len, b), len) == r
  }

  /** The flip loop's buffer after its first `j` iterations. */
  function SwapPrefix(d: seq<byte>, len: nat, h: nat, j: nat): (r: seq<byte>)
    requires 2 * j <= h
    ensures |r| == |d|
    decreases j
  {
    if j == 0 then d
    else SwapBlocks(SwapPrefix(d, len, h, j - 1), RowStart(len, j - 1), RowStart(len, h - j), len)
  }

  /** One more iteration of the flip loop. */
  lemma SwapPrefixNext(d: seq<byte>, len: nat, h: nat, j: nat, data: seq<byte>, r: seq<byte>)
    requires 2 * j + 2 <= h
    requires data == SwapPrefix(d, len, h, j)
    requires RowsSwapped(data, r, len, j, h - 1 - j)
    ensures SwapPrefix(d, len, h, j + 1) == r
  {
  }

  /** The `h` rows after the first `j` swaps of the flip loop. */
  ghost function RowSwaps(rows: seq<seq<byte>>, h: nat, j: nat): (r: seq<seq<byte>>)
    requires h == |rows| && 2 * j <= h
    ensures |r| == h
    decreases j
  {
    if j == 0 then rows
    else
      var c := RowSwaps(rows, h, j - 1);
      c[j - 1 := c[h - j]][h - j := c[j - 1]]
  }

  /** Exchanging two rows' bytes is exchanging the two rows. */
  lemma SwapRowBytesFlat(c: seq<seq<byte>>, len: nat, a: nat, b: nat)
    requires Uniform(c, len) && a < b < |c|
    ensures SwapBlocks(Flatten(c), RowStart(len, a), RowStart(len, b), len) == Flatten(c[a := c[b]][b := c[a]])
  {
    var l1, l2 := RowStart(len, a), RowStart(len, b);
    var mid := c[a := c[b]];
    var f, g := Flatten(c), Flatten(mid);
    RowStartMono(len, a, b);
    CopyRow(c, len, b, a, l2, l1);
    assert Uniform(mid, len);
    FlattenRow(c, len, a);
    CopyRowOver(mid, len, b, c[a]);
    SwapBlocksSplices(f, l1, l2, len, g, Flatten(mid[b := c[a]]));
  }

  /** Copying row `src` over row `dst` in the bytes is doing it on the rows. */
  lemma CopyRow(c: seq<seq<byte>>, len: nat, src: nat, dst: nat, ls: nat, ld: nat)
    requires Uniform(c, len) && src < |c| && dst < |c|
    requires ls == RowStart(len, src) && ld == RowStart(len, dst)
    ensures ls + len <= |Flatten(c)| && ld + len <= |Flatten(c)|
    ensures Splice(Flatten(c), ld, Flatten(c)[ls .. ls + len]) == Flatten(c[dst := c[src]])
  {
    FlattenRow(c, len, src);
    FlattenSplice(c, len, dst, c[src]);
  }

  /** Copying a saved row over row `dst` in the bytes is doing it on the rows. */
  lemma CopyRowOver(c: seq<seq<byte>>, len: nat, dst: nat, line: seq<byte>)
    requires Uniform(c, len) && dst < |c| && |line| == len
    ensures RowStart(len, dst) + len <= |Flatten(c)|
    ensures Splice(Flatten(c), RowStart(len, dst), line) == Flatten(c[dst := line])
  {
    FlattenSplice(c, len, dst, line);
  }

  /** SwapBlocks is the two copies of the flip loop, one after the other. */
  lemma SwapBlocksSplices(f: seq<byte>, l1: nat, l2: nat, len: nat, g: seq<byte>, r: seq<byte>)
    requires l1 + len <= l2 && l2 + len <= |f|
    requires g == Splice(f, l1, f[l2 .. l2 + len]) && r == Splice(g, l2, f[l1 .. l1 + len])
    ensures SwapBlocks(f, l1, l2, len) == r
  {
  }

  /** Swapping rows keeps every row `len` bytes long. */
  lemma {:induction false} RowSwapsUniform(rows: seq<seq<byte>>, len: nat, h: nat, j: nat)
    requires Uniform(rows, len) && h == |rows| && 2 * j <= h
    ensures Uniform(RowSwaps(rows, h, j), len)
    decreases j
  {
    if j > 0 {
      RowSwapsUniform(rows, len, h, j - 1);
    }
  }

  /** After `j` swaps the outer `j` rows at each end have traded places. */
  lemma {:induction false} RowSwapsHalf(rows: seq<seq<byte>>, h: nat, j: nat)
    requires h == |rows| && 2 * j <= h
    ensures HalfSwapped(RowSwaps(rows, h, j), rows, j)
    decreases j
  {
    if j > 0 {
      RowSwapsHalf(rows, h, j - 1);
      SwapExtends(RowSwaps(rows, h, j - 1), rows, h, j - 1);
    }
  }

  /** The `j`-th swap exchanges rows j-1 and h-j. */
  lemma RowSwapsStep(rows: seq<seq<byte>>, h: nat, j: nat)
    requires 0 < j && h == |rows| && 2 * j <= h
    ensures var c := RowSwaps(rows, h, j - 1);
            RowSwaps(rows, h, j) == c[j - 1 := c[h - j]][h - j := c[j - 1]]
  {
  }

  /** The loop's bytes after `j` iterations are its rows after `j` swaps. */
  lemma {:induction false} SwapPrefixRows(d: seq<byte>, len: nat, h: nat, j: nat, rows: seq<seq<byte>>)
    requires |d| == RowStart(len, h) && 2 * j <= h
    requires |rows| == h && Uniform(rows, len) && Flatten(rows) == d
    ensures SwapPrefix(d, len, h, j) == Flatten(RowSwaps(rows, h, j))
    decreases j
  {
    if j > 0 {
      var c := RowSwaps(rows, h, j - 1);
      SwapPrefixRows(d, len, h, j - 1, rows);
      RowSwapsUniform(rows, len, h, j - 1);
      RowSwapsStep(rows, h, j);
      SwapPrefixStep(d, len, h, j, c);
    }
  }

  /** One iteration of the loop, on bytes and on rows. */
  lemma SwapPrefixStep(d: seq<byte>, len: nat, h: nat, j: nat, c: seq<seq<byte>>)
    requires 0 < j && 2 * j <= h && |c| == h && Uniform(c, len)
    requires SwapPrefix(d, len, h, j - 1) == Flatten(c)
    ensures SwapPrefix(d, len, h, j) == Flatten(c[j - 1 := c[h - j]][h - j := c[j - 1]])
  {
    SwapPrefixUnfold(d, len, h, j, Flatten(c));
    SwapRowBytesFlat(c, len, j - 1, h - j);
  }

  lemma SwapPrefixUnfold(d: seq<byte>, len: nat, h: nat, j: nat, prev: seq<byte>)
    requires 0 < j && 2 * j <= h && prev == SwapPrefix(d, len, h, j - 1)
    ensures SwapPrefix(d, len, h, j) == SwapBlocks(prev, RowStart(len, j - 1), RowStart(len, h - j), len)
  {
  }

  /** After h/2 iterations the rows are reversed. */
  lemma SwapPrefixReverses(d: seq<byte>, len: nat, h: nat)
    requires |d| == RowStart(len, h)
    ensures SwapPrefix(d, len, h, h / 2) == ReverseRows(d, len, h)
  {
    var rows := Rows(d, len, h);
    FlattenRows(d, len, h);
    SwapPrefixRows(d, len, h, h / 2, rows);
    RowSwapsHalf(rows, h, h / 2);
    HalfSwappedIsReverse(RowSwaps(rows, h, h / 2), rows);
  }

  /**
    Iteration `j` of the loop of tgalib.FlipVertically on `h` rows: row `j`
    is saved to a scratch line, row h-1-j is copied over it, and the scratch
    line is copied over row h-1-j.
   */
  method SwapRows(data: seq<byte>, len: nat, h: nat, j: nat) returns (r: seq<byte>)
    requires 2 * j + 2 <= h && RowStart(len, h) <= |data|
    ensures RowStart(len, j) + len <= RowStart(len, h - 1 - j)
    ensures RowStart(len, h - 1 - j) + len <= |data|
    ensures RowsSwapped(data, r, len, j, h - 1 - j)
  {
    // l1 and l2 are `j * bytes_per_line` and `(height-1-j) * bytes_per_line` (RowStartIsProduct).
    var l1 := RowStart(len, j);
    var l2 := RowStart(len, h - 1 - j);
    RowStartMono(len, j, h - 1 - j);
    RowStartMono(len, h - 1 - j, h);
    var line := data[l1 .. l1 + len];
    var g := Splice(data, l1, data[l2 .. l2 + len]);
    r := Splice(g, l2, line);
    SwapBlocksSplices(data, l1, l2, len, g, r);
  }

  /**
    The loop of tgalib.FlipVertically on a buffer of `h` rows of `len`
    bytes: rows j and h-1-j trade places for every j below h/2.
   */
  method SwapRowsLoop(d: seq<byte>, len: nat, h: nat) returns (data: seq<byte>)
    requires |d| == RowStart(len, h)
    ensures data == ReverseRows(d, len, h)
  {
    data := d;
    var half := h / 2;
    assert 2 * half <= h;
    var j := 0;
    while j < half
      invariant j <= half
      invariant data == SwapPrefix(d, len, h, j)
    {
      assert 2 * j + 2 <= h;
      var next := SwapRows(data, len, h, j);
      SwapPrefixNext(d, len, h, j, data, next);
      data, j := next, j + 1;
    }
    SwapPrefixReverses(d, len, h);
  }

  /**
    tgalib.FlipVertically: reports false and changes nothing when the buffer
    is nil; otherwise reverses the order of the rows in place.
   */
  method FlipVertically(img: Image) returns (ok: bool, flipped: Image)
    requires Valid(img)
    ensures ok == !img.nilData
    ensures !ok ==> flipped == img
    ensures ok ==> Valid(flipped) && !flipped.nilData
    ensures ok ==> flipped.width == img.width && flipped.height == img.height
    ensures ok ==> |img.data| == RowStart(img.width * 3, img.height)
    ensures ok ==> var before, after := Rows(img.data, img.width * 3, img.height),
                                        Rows(flipped.data, img.width * 3, img.height);
                   forall j :: 0 <= j < img.height ==> after[j] == before[img.height - 1 - j]
    ensures ok ==> flipped.data == ReverseRows(img.data, img.width * 3, img.height)
  {
    if img.nilData {
      return false, img;
    }
    var bytesPerLine: nat := img.width * 3;
    RowStartIsProduct(bytesPerLine, img.height);
    var data := SwapRowsLoop(img.data, bytesPerLine, img.height);
    RowsFlatten(Reverse(Rows(img.data, bytesPerLine, img.height)), bytesPerLine);
    ok := true;
    flipped := img.(data := data);
  }
}
